=== FILE: README.md ===
# Hajzee server core in Dafny

A model of the rules at the centre of the Hajzee playground-booking server, with
proofs about them. The server is an Express/Mongoose application. The model covers:

- **Booking engine.** `bookPlayground` checks a requested slot against the
  pending and confirmed bookings of the playground, using `isConflictingBooking`.
  The booking controller then creates, confirms, cancels, updates and deletes
  bookings. Booking a playground, creating, confirming and cancelling a booking
  each send two notifications, one to the booker and one to the playground's
  owner; updating and deleting send none. A failing notification never changes
  the booking's outcome.
- **Notification store.** The notification schema (required recipient and
  message, a trimmed message, the type enum) and the endpoints that list, mark
  as read and delete a user's notifications.
- **Chat.** Starting a unique owner/user conversation per playground, sending a
  message (with its notification to the other participant), reading the
  messages in time order, and marking them read.
- **Ads.** The ad schema's validators and defaults, the `isCurrentlyActive`
  virtual, and the ad endpoints: the public listing of active ads (filter, order,
  limit of ten), the impression and click counters, and creating, toggling and
  deleting ads.

Mongo collections are classes holding a `seq` of documents and the next id.
The controllers are methods that modify them. Document ids are naturals. A
reference to a playground is looked up in a `Directory`, which maps each
playground to its owner, if it has one. The current time is always a parameter
in milliseconds. Every `createNotification` call takes a boolean saying whether
its store write fails.

Properties proved include:

- The three-clause clash test equals the half-open overlap test whenever the
  candidate is well ordered (`ClashIsOverlap`).
- Booking through `bookPlayground`, cancelling and deleting all keep a
  playground's live bookings pairwise non-overlapping.
- Three paths can break that invariant, each with a concrete case: `createBooking`
  takes any slot (`CreateBypassesOverlapCheck`), `updateBooking` can set a
  canceled booking back to pending (`UpdateCanBreakNoOverlap`), and confirming a
  canceled booking revives it (`ConfirmCanBreakNoOverlap`).
- The sequence of notifications each booking change stores.
- Trimming is idempotent; a blank notification message is refused.
- The ad listing returns the ten top-ranked passing ads in order.
- A placement filter makes the listing drop its end-date condition.
- Toggling an ad twice restores it.

The model follows the code where it departs from what the system's design
promises:

- Bookings are not required to have `start < end` (`NoIntervalConstraint`).
- `createBooking` runs no conflict check at all.
- The booking cost is whatever the client sends.
- Ad `maxLength: 100` admits exactly 100 characters, although its message says
  "less than 100" (`TitleOfLengthLimit`).

## Model

| member | source | states |
|---|---|---|
| Common.Filter | controllers/notificationController.js:6 | `find(filter)` keeps exactly the documents that pass, each as often as stored, never more than the input |
| Common.FirstIndex | controllers/playGroundControllers.js:149-166 | `Array.find`: none iff no element passes; otherwise the first passing position |
| Common.RemoveAt | controllers/bookingController.js:99 | `findByIdAndDelete`: removes exactly one occurrence of the element at `i`, keeping the others in order |
| Common.IdText | controllers/bookingController.js:23 | the id written in an error message is a string of decimal digits that spells exactly the requested id, with no leading zero |
| Common.IdTextInjective | controllers/bookingController.js:23 | two different ids never produce the same message text |
| Text.Trim | models/notification.models.js:38 | `trim`: the result is a slice of the input, no longer than it, with no surrounding whitespace |
| Text.TrimStartCutsSpace | models/notification.models.js:38 | the characters removed from the front are all whitespace |
| Text.TrimEndCutsSpace | models/notification.models.js:38 | the characters removed from the back are all whitespace |
| Text.TrimCutsSpace | models/notification.models.js:38 | everything `trim` removes, on either side, is whitespace |
| Text.TrimIdempotent | models/ad.models.js:8 | a trimmed value is trimmed, and trimming it again changes nothing |
| Text.TrimOfTrimmed | models/ad.models.js:23 | a value with no surrounding whitespace is left unchanged by `trim` |
| Text.TrimEmptyIffBlank | models/notification.models.js:35-39 | trimming gives the empty string exactly when the input is all whitespace |
| Text.TrimOption | models/conversation.models.js:22 | an absent value stays absent; a present one is stored trimmed |
| Sorting.SortBy | controllers/notificationController.js:6 | `.sort(...)`: the result is ordered by the key and is a permutation of the input |
| Sorting.PrefixOfSortedIsTop | controllers/adController.js:68-71 | after `.sort(...).limit(n)`, no element left out ranks above one kept |
| BookingModel.ParseStatus | models/booking.models.js:22-26 | the status enum accepts exactly the four names, and maps each back to its name |
| BookingModel.ParseStatusName | models/booking.models.js:22-26 | every status parses back from its own name |
| BookingModel.Invalid | models/booking.models.js:3-31 | the paths that fail: a missing playground, a missing user, a status outside the enum, and nothing else |
| BookingModel.NewBooking | models/booking.models.js:3-31 | `Booking.create`: refused exactly when some path fails, with those paths; otherwise stores the given fields |
| BookingModel.DefaultsApplied | models/booking.models.js:17-30 | an omitted status is `pending`, cost 0, `createdAt` the load time |
| BookingModel.CreatedAtIsShared | models/booking.models.js:27-30 | `default: Date.now()` is evaluated once, so every booking created without `createdAt` gets the same one |
| BookingModel.NoIntervalConstraint | models/booking.models.js:3-5 | a booking whose end is before its start is accepted |
| BookingModel.IndexOf | controllers/bookingController.js:124 | `findById`: none iff no row has the id; otherwise a row with that id |
| BookingModel.BookingTable.Create | controllers/bookingController.js:41 | the table gains the new booking exactly when the schema accepts it |
| NotificationModel.ParseType | models/notification.models.js:21-31 | the type enum accepts exactly its five names |
| NotificationModel.NewNotification | models/notification.models.js:3-48 | stored exactly when acceptable (recipient present, message present and not blank, type in the enum), carrying the given fields |
| NotificationModel.StoredMessageIsTrimmed | models/notification.models.js:35-39 | a stored message is non-empty and trimmed |
| NotificationModel.BlankMessageRejected | models/notification.models.js:35-39 | an all-whitespace message is refused by `required` after `trim` |
| NotificationController.Delivered | controllers/notificationController.js:39-42 | only acceptable notices among those asked for are stored; with no failure every notice is, with every write failing none is |
| NotificationController.DeliveredExactly | controllers/notificationController.js:39-42 | a notice is stored iff one of its calls has a working write and passes the validators: a failed write stores nothing |
| NotificationController.AppendedChain | controllers/notificationController.js:39-42 | two successive rounds of notices append their concatenation |
| NotificationController.DeliveredPair | controllers/bookingController.js:47-66 | the two calls of a `Promise.all` succeed or fail independently |
| NotificationController.DeliveredOne | controllers/notificationController.js:39-42 | a single notice is stored exactly when its write succeeds and the schema accepts it |
| Common.AppendKeepsIdsBelow | models/notification.models.js:3-48 | a notification (or booking) stored under the next id keeps every id unique and below the next one |
| NotificationController.CreateNotification | controllers/notificationController.js:39-42 | stores the notice iff its write succeeds and the schema accepts it; otherwise the log is unchanged |
| NotificationController.CreateBoth | controllers/bookingController.js:47-66 | both notices go through `CreateNotification`, in order |
| NotificationController.OwnedIndex | controllers/notificationController.js:16-17 | the filter `{_id, recipient}`: none iff the caller owns no notification with that id |
| NotificationController.MarkRead | controllers/notificationController.js:15-30 | sets `isRead` on the caller's notification and changes nothing else |
| NotificationController.MarkReadIdempotent | controllers/notificationController.js:15-30 | marking as read twice is the same as once |
| NotificationController.MarkAsRead | controllers/notificationController.js:15-30 | 404 "Notification not found" iff the caller owns none with that id; otherwise returns it marked read |
| NotificationController.Deleted | controllers/notificationController.js:32-37 | removes exactly the caller's notification with that id, and keeps every other notification |
| NotificationController.DeleteNotification | controllers/notificationController.js:32-37 | 404 iff not owned; otherwise the notification is gone from the log |
| NotificationController.Inbox | controllers/notificationController.js:5-13 | exactly the caller's notifications, newest first |
| NotificationController.GetMyNotifications | controllers/notificationController.js:5-13 | returns the caller's inbox |
| BookingNotices.TextsValid | controllers/bookingController.js:142-159 | the fixed messages are not blank, and each type name is in the notification enum |
| BookingNotices.TypeTextIsEnumName | controllers/bookingController.js:53-210 | each event's `type` literal is the enum name of its notification type and passes the enum validator |
| BookingNotices.NoticesAcceptable | controllers/bookingController.js:47-66 | the booker's notice always passes validation; the owner's passes iff the playground has an owner |
| BookingNotices.Sent | controllers/bookingController.js:43-70 | at most two notices; none when the playground cannot be read |
| BookingNotices.FanOut | controllers/playGroundControllers.js:210-232 | with an owner and no failure: two notices of the event's type, to the booker and then to the owner |
| BookingNotices.OwnerlessPlayground | controllers/bookingController.js:193-214 | without an owner, only the booker's notice is stored |
| BookingNotices.Announce | controllers/bookingController.js:192-217 | the only effect of the notification block is to append the sent notices |
| PlaygroundController.IsConflictingBooking | controllers/playGroundControllers.js:145-167 | none iff no existing booking clashes; otherwise the first one that clashes |
| PlaygroundController.ClashIsOverlap | controllers/playGroundControllers.js:163-165 | for a well-ordered candidate, the three clauses mean exactly half-open overlap |
| PlaygroundController.NoClashNoOverlap | controllers/playGroundControllers.js:163-165 | no clash implies no half-open overlap in either direction, for any candidate |
| PlaygroundController.BackToBack | controllers/playGroundControllers.js:163-165 | a slot that starts when another ends, or ends when it starts, does not clash |
| PlaygroundController.ClashExamples | controllers/playGroundControllers.js:163-165 | against 10–12: 11–13 clashes; 12–14 and 8–10 do not |
| PlaygroundController.LiveFor | controllers/playGroundControllers.js:171 | the query keeps exactly this playground's pending and confirmed bookings |
| PlaygroundController.OnlyLiveBookingsBlock | controllers/playGroundControllers.js:171-188 | a conflict exists iff some live booking of the playground clashes, and the one reported is such a booking |
| PlaygroundController.BookingKeepsNoOverlap | controllers/playGroundControllers.js:188-203 | adding a booking that passed the conflict check keeps live bookings pairwise non-overlapping |
| PlaygroundController.DecidedKeepsNoOverlap | controllers/playGroundControllers.js:169-203 | a booking `bookPlayground` stores keeps every playground's live bookings pairwise non-overlapping |
| PlaygroundController.EpochIsZero | controllers/playGroundControllers.js:181 | `Date.UTC(1970, 0, 1, 0, 0)` is 0 |
| PlaygroundController.TwoDigitYear | controllers/playGroundControllers.js:181 | for every month, day, hour and minute, `Date.UTC` reads a year from 0 to 99 as the same year of the 1900s |
| PlaygroundController.MonthCarries | controllers/playGroundControllers.js:181 | for every date and time, twelve months more is one year more, so a month index outside 0..11 (past December or before January) carries into the year |
| PlaygroundController.MonthStartCarries | controllers/playGroundControllers.js:181 | the first day of month `m + 12` of a year is the first day of month `m` of the next year |
| PlaygroundController.TimeCountsLinearly | controllers/playGroundControllers.js:181 | one more day, hour or minute adds exactly a day's, an hour's or a minute's milliseconds, also past the usual ranges |
| PlaygroundController.FirstOfMonth | controllers/playGroundControllers.js:181 | the first of a month at midnight is its day number since the epoch times a day's milliseconds |
| PlaygroundController.DaysInMonth | controllers/playGroundControllers.js:181 | the Gregorian month lengths, 29 days exactly for February of a leap year |
| PlaygroundController.MarchYear | controllers/playGroundControllers.js:181 | the day count runs 366 days from March of one year to March of the next exactly when the second year is a leap year (divisible by 4, and by 400 if by 100) |
| PlaygroundController.MonthLengths | controllers/playGroundControllers.js:181 | the day numbers of consecutive firsts of months, December to January included, differ by the calendar's month length |
| PlaygroundController.KnownDate | controllers/playGroundControllers.js:177-181 | 2024-03-01 10:30 is 1709289000000 ms |
| PlaygroundController.Decide | controllers/playGroundControllers.js:169-243 | 409 iff some live booking of the playground clashes, carrying that booking's start and end; otherwise a pending booking from the UTC start for `duration` hours, with the caller, the cost or 0, and the load-time `createdAt` |
| PlaygroundController.RequestBodyValid | controllers/playGroundControllers.js:203 | the document `bookPlayground` creates always passes the schema |
| PlaygroundController.BookPlayground | controllers/playGroundControllers.js:169-243 | answers `Decide`; a conflict changes nothing; a booking is appended and announced; no overlap among live bookings survives |
| BookingController.NotFound | controllers/bookingController.js:23 | the missing-booking failure is a 404 |
| BookingController.Confirm | controllers/bookingController.js:130-134 | 409 iff already confirmed; otherwise only the status changes, to confirmed |
| BookingController.Cancel | controllers/bookingController.js:180-188 | 409 if canceled, 400 if completed; otherwise only the status changes, to canceled |
| BookingController.RepeatRefused | controllers/bookingController.js:130-186 | confirming or cancelling twice is refused the second time |
| BookingController.ConfirmRevives | controllers/bookingController.js:130-135 | a canceled booking can be confirmed, which makes it live again |
| BookingController.ConfirmCanBreakNoOverlap | controllers/bookingController.js:123-135 | confirming a canceled booking can create an overlap, since no conflict check runs |
| BookingController.CancelKeepsNoOverlap | controllers/bookingController.js:188-189 | cancelling keeps live bookings pairwise non-overlapping |
| BookingController.DeleteKeepsNoOverlap | controllers/bookingController.js:98-109 | deleting keeps live bookings pairwise non-overlapping |
| BookingController.ConfirmBooking | controllers/bookingController.js:123-170 | 404 for an unknown id, else `Confirm` of the row; on success the row is replaced and both parties notified; on failure nothing changes |
| BookingController.CancelBooking | controllers/bookingController.js:173-224 | 404 for an unknown id, else `Cancel` of the row; on success the row is replaced and notices sent; live bookings stay non-overlapping |
| BookingController.CreateBooking | controllers/bookingController.js:40-77 | creates exactly what the schema accepts and announces it; a refused body changes nothing |
| BookingController.CreateBypassesOverlapCheck | controllers/bookingController.js:40-41 | `createBooking` accepts a booking that overlaps a live one |
| BookingController.UpdateErrors | controllers/bookingController.js:81-84 | for a patch whose fields are each absent or given (never an explicit `null`), the update validators fail exactly on a status outside the enum |
| BookingController.Patched | controllers/bookingController.js:81-84 | the fields given are set and every other field (an explicit `null` included) is kept |
| BookingController.UpdateBooking | controllers/bookingController.js:80-95 | a validation error first, then 404; otherwise the row is replaced by the patched booking |
| BookingController.UpdateBypassesTransitions | controllers/bookingController.js:80-84 | a completed booking cannot be canceled, but an update can set it back to pending |
| BookingController.UpdateCanBreakNoOverlap | controllers/bookingController.js:80-84 | an update that sets a canceled booking back to pending over a live one passes validation and creates an overlap |
| BookingController.DeleteBooking | controllers/bookingController.js:98-109 | 404 iff unknown; otherwise exactly the row with that id is removed |
| BookingController.BookingsOf | controllers/bookingController.js:32-38 | exactly the caller's bookings |
| BookingController.BookingsAt | controllers/bookingController.js:112-120 | exactly the playground's bookings, of every status |
| BookingController.LiveAmongBookingsAt | controllers/bookingController.js:112-120 | the bookings that block a slot are among those the playground listing returns |
| BookingController.GetMyBookings | controllers/bookingController.js:32-38 | returns the caller's bookings |
| BookingController.GetPlaygroundBookings | controllers/bookingController.js:112-120 | returns the playground's bookings |
| ChatController.Resolve | controllers/chatController.js:9-41 | each of the five refusals (400/404) in source order, and success exactly when the owner matches and the user is someone else; on success the owner is the playground's, differs from the user, and the initiator is one of the two |
| ChatController.NonOwnerIsTheUser | controllers/chatController.js:33-35 | a non-owner initiator is the user participant |
| ChatController.OwnerCannotTalkToSelf | controllers/chatController.js:37-41 | an owner naming themself as the user is refused with 400 |
| ChatController.Existing | controllers/chatController.js:43-46 | none iff no conversation has both participants on that playground |
| ChatController.MatchesIsSameKey | controllers/chatController.js:43-46 | the `$all` lookup finds exactly the conversations with the same pair and playground |
| ChatController.ReplaceKeepsValid | models/conversation.models.js:5-32 | changing a conversation's messages keeps ids unique and at most one conversation per pair and playground |
| ChatController.CreatedIsFound | controllers/chatController.js:48-55 | a conversation created after a failed lookup is the one found next time |
| ChatController.CreateKeepsValid | controllers/chatController.js:43-55 | creating the conversation of a pair that has none keeps one conversation per pair and playground, and the next lookup finds it |
| ChatController.StartConversation | controllers/chatController.js:8-58 | errors as `Resolve`, with nothing created; otherwise the existing conversation, or a new one with the two participants |
| ChatController.ConvIndex | controllers/chatController.js:71 | `findById` on conversations |
| ChatController.RecipientOf | controllers/chatController.js:92-93 | the first participant other than the sender; none iff every participant is the sender |
| ChatController.WellFormedNeedsNoFix | controllers/chatController.js:98-106 | a well-formed conversation never needs its participants rewritten |
| ChatController.NoticeText | controllers/chatController.js:130 | an empty or absent text falls back to a non-blank default |
| ChatController.BlankTextLosesNotice | controllers/chatController.js:125-132 | an all-whitespace text is stored, but its notification is refused |
| ChatController.Posted | controllers/chatController.js:115-120 | the message is appended with its text trimmed, `lastMessage` is the raw text and `lastMessageAt` its time; participants and playground are kept |
| ChatController.PostMessage | controllers/chatController.js:115-121 | the saved conversation is the old one with the message posted, and the table stays valid |
| ChatController.SendMessage | controllers/chatController.js:81-138 | 404, then 403; a participant's message is always accepted: appended from the sender to the other participant with trimmed text, the summary updated and the recipient notified |
| ChatController.MarkAllRead | controllers/chatController.js:149-155 | exactly the caller's messages become read; nothing else changes |
| ChatController.MarkAllReadIdempotent | controllers/chatController.js:149-155 | marking twice is the same as once |
| ChatController.MarkAllReadChangesIff | controllers/chatController.js:148-156 | the messages change iff the caller had an unread message |
| ChatController.MarkRead | controllers/chatController.js:148-155 | the loop yields `MarkAllRead` of the messages, and `updated` is true iff a message to the caller was unread |
| ChatController.MarkConversationMessagesRead | controllers/chatController.js:140-162 | 404, then 403; otherwise every message to the caller is marked read, and the conversation is saved only when one of them was unread (the reply is `success` either way) |
| ChatController.GetConversationMessages | controllers/chatController.js:69-79 | 404, then 403; otherwise the conversation's messages, oldest first |
| AdModel.ParseAdType | models/ad.models.js:31-36 | the type enum accepts exactly its four names |
| AdModel.ParsePlacement | models/ad.models.js:37-42 | the placement enum accepts exactly its five names |
| AdModel.ParseRole | models/ad.models.js:69-73 | the audience-role enum accepts exactly its four names |
| AdModel.NamesParse | models/ad.models.js:31-73 | every enum value parses back from its name |
| AdModel.AdErrors | models/ad.models.js:3-97 | a path is reported iff its validator rejects the body |
| AdModel.AdmissibleIffNoErrors | models/ad.models.js:3-97 | no path is reported exactly when no validator rejects the body |
| AdModel.NoErrors | models/ad.models.js:5-91 | a body no validator rejects has a title, a description and an image, trimmed texts within their limits, a valid link, an end after the start, ages in 13–100 and a priority in 1–10 |
| AdModel.StoredText | models/ad.models.js:5-16 | a text passing `required`, `trim` and `maxLength` is stored non-empty, trimmed and within the limit |
| AdModel.Accepts | models/ad.models.js:3-97 | with no errors, no single validator rejects |
| AdModel.NewAd | models/ad.models.js:3-103 | `Ad.create`: refused exactly when some path fails, with those paths; otherwise a schema-valid ad under the given id and creator, storing every given field (texts trimmed, enum names parsed, a body-supplied `createdAt` kept) and the default for each omitted one (`createdAt` the current time) |
| AdModel.AdDefaults | models/ad.models.js:34-99 | omitted fields default to banner, `all`, active, start now, any role, priority 1, no clicks or impressions, and `createdAt` now |
| AdModel.TitleOfLengthLimit | models/ad.models.js:9 | a 100-character title is accepted and a 101-character one refused |
| AdModel.LinkExamples | models/ad.models.js:21-30 | empty, `https://x` and `http://a.b/c` pass; `https://`, `ftp://x` and `www.x.com` fail |
| AdModel.CurrentOnlyWithinDates | models/ad.models.js:110-115 | an ad is not current before its start, after its end, or when inactive |
| AdModel.AdIndex | controllers/adController.js:198 | `findById` on ads: none iff no ad has the id; otherwise the first with it |
| AdController.RankingIsTotalPreorder | controllers/adController.js:69 | the sort order is total and transitive |
| AdController.Ranked | controllers/adController.js:48-69 | the passing ads in ranking order, each as often as stored, and no others |
| AdController.Served | controllers/adController.js:68-71 | at most ten ads |
| AdController.ServedAreListed | controllers/adController.js:48-68 | every served ad is stored and passes the filter, and none is served more often than stored |
| AdController.ServedInRankingOrder | controllers/adController.js:69 | by priority descending, then newest first |
| AdController.ServedAreTop | controllers/adController.js:68-71 | no passing ad left out ranks above a served one |
| AdController.ServedAllWhenFew | controllers/adController.js:71 | with fewer than ten passing ads, all are served |
| AdController.ActiveAds | controllers/adController.js:45-78 | the served ads without counters or creator, each with its `isCurrentlyActive` virtual, in the same order |
| AdController.GetActiveAds | controllers/adController.js:45-78 | returns the listing |
| AdController.ListedWithoutPlacement | controllers/adController.js:48-55 | without a placement (or with `all`), an ad passes iff it is currently active and of the requested type |
| AdController.ServedWithoutPlacementIsCurrent | controllers/adController.js:48-55 | so every ad served without a placement is currently active |
| AdController.PlacementIgnoresEndDate | controllers/adController.js:57-62 | with a placement, an expired ad of that placement or of `all` still passes |
| AdController.ExpiredAdListedForHome | controllers/adController.js:57-62 | an ad that ended at 5 is served at 10 for `placement=home`, and the listing shows it as not currently active |
| AdController.PlacementFilterExact | controllers/adController.js:57-62 | a placement filter admits only that placement or `all` |
| AdController.TypeFilterExact | controllers/adController.js:64-66 | a type filter admits only that type; an unknown type lists nothing |
| AdController.ReplaceKeepsValid | models/ad.models.js:3-97 | replacing an ad by a schema-valid one with the same id keeps the table valid |
| AdController.Impressed | controllers/adController.js:84-86 | an unknown id changes nothing; otherwise the first ad with the id gains exactly one impression, with its other fields and every other ad unchanged |
| AdController.TrackImpression | controllers/adController.js:81-92 | always "Impression tracked"; a known ad gets exactly one more impression, an unknown id changes nothing |
| AdController.TrackClick | controllers/adController.js:95-113 | 404 "Ad not found" for an unknown id; otherwise one more click, and the link is returned |
| AdController.Toggled | controllers/adController.js:204 | `isActive` flips and nothing else changes |
| AdController.ToggleTwiceRestores | controllers/adController.js:197-205 | toggling twice restores the table |
| AdController.ToggleAdStatus | controllers/adController.js:197-211 | 404 for an unknown id; otherwise `isActive` is negated and the saved ad still passes the schema |
| AdController.WithUpload | controllers/adController.js:147-149 | `image` becomes the uploaded file's name when there is one; every other field is the body's |
| AdController.AppendKeepsValid | models/ad.models.js:3-97 | adding a schema-valid ad under the next id keeps ids unique and the table valid |
| AdController.CreateAd | controllers/adController.js:145-160 | the uploaded file name replaces `image`, the caller is the creator; the table gains exactly what `Ad.create` accepts |
| AdController.RemoveUniqueId | controllers/adController.js:184 | deleting by id removes exactly the ads with that id |
| AdController.RemoveKeepsValid | models/ad.models.js:3-97 | removing an ad keeps ids unique and every remaining ad schema-valid |
| AdController.DeleteAd | controllers/adController.js:183-194 | 404 iff unknown; otherwise exactly that ad is removed |

## Left out

- Concurrency. Each request runs to completion before the next. The race between `bookPlayground`'s conflict query and its insert is not modelled.
- I/O and wiring: HTTP responses beyond their status and payload, routing, authentication and `restrictTo`, logging, and the image upload and resize. An uploaded file arrives as the stored file name.
- Mongoose internals. `populate` hooks, indexes and the TTL index that deletes expired ads are left out. Collections are in-memory sequences, and references are ids that are assumed to exist. The `timestamps` fields (`updatedAt`) are not kept.
- Malformed ids (the `CastError` 400 path). Ids are naturals, so every id is well formed.
- `Date.UTC` edge cases: `TimeClip`, `NaN` from `parseInt` on a malformed date or time, and fractional `duration`. Dates are integer milliseconds.
- Floating point. Cost is a `real`. The `ctr` virtual (which `toJSON` also adds to every listed ad), the analytics and the stats aggregation (averages, `toFixed`, `Math.ceil`) are not modelled.
- Operations with no rules of their own: `getAllBookings`, `getBooking`, `getMyConversations`, `getAllAds`, `getAd`, `updateAd`, `getAdAnalytics`, `getAdsStats`, favourites and the admin controller.
- The 400 "Booking does not created properly!" after `bookPlayground`'s insert is not modelled: reading back a document just created always finds it here.
- A sort by equal keys keeps insertion order. Mongo leaves the order of ties unspecified.
- Query parameters that arrive as arrays (`?placement=a&placement=b`) are not modelled; each parameter is one optional string.
- PlaygroundController.IsConflictingBooking: an explicit JSON `null` for a date is modelled as an omitted one (`None`). The source stores `null`, and `new Date(null)` is time 0, so a booking stored with a `null` start and an end E blocks candidates as the interval from 0 to E; the model's booking without a start blocks nothing.
- AdController.ListedWithoutPlacement: an ad stored with a `null` `endDate` matches neither `$exists: false` nor `$gte` (controllers/adController.js:50-54), so the source never lists it without a placement filter although its `isCurrentlyActive` is true; one stored with a `null` `startDate` fails `$lte` and is never listed at all. The model reads both as omitted: no end date, and a start date of now.
- The 400 "Invalid conversation participants" in `sendMessage` and its rewrite of `participants` to the two unique ids (controllers/chatController.js:92-106) are not modelled. Both are reachable only when `populate` drops a participant whose user was deleted, and references here are ids assumed to exist.
- BookingController.UpdateErrors: an explicit JSON `null` in an update body is read as an omitted field. The source's update validators run the `required` checks (models/booking.models.js:6-15) on a path set to `null`, so `{"playground": null}` or `{"user": null}` is refused and nothing is stored; a `null` for `start`, `end`, `cost` or `createdAt` is stored, clearing the field. The model accepts the first and keeps the old value in both cases (`Patched`).

=== FILE: ad_controller.dfy ===
/** The ad endpoints (controllers/adController.js): the public listing of
    active ads with its filter, order and limit, the impression and click
    counters, and the admin operations that create, toggle and delete ads. */
module AdController {
  import opened Common
  import opened Text
  import opened Sorting
  import opened AdModel

  /** What the listing shows of an ad: every field except the two counters
      and the creator, which `.select(...)` excludes, plus the
      `isCurrentlyActive` virtual that `toJSON` adds. */
  datatype AdView = AdView(
    id: AdId,
    title: string,
    description: string,
    image: string,
    link: Option<string>,
    adType: AdType,
    placement: Placement,
    isActive: bool,
    startDate: int,
    endDate: Option<int>,
    userRole: AudienceRole,
    minAge: Option<int>,
    maxAge: Option<int>,
    location: Option<string>,
    priority: int,
    createdAt: int,
    isCurrentlyActive: bool)

  function View(ad: Ad, now: int): AdView {
    AdView(ad.id, ad.title, ad.description, ad.image, ad.link, ad.adType, ad.placement,
      ad.isActive, ad.startDate, ad.endDate, ad.userRole, ad.minAge, ad.maxAge,
      ad.location, ad.priority, ad.createdAt, IsCurrentlyActive(ad, now))
  }

  /** A query parameter filters only when it is present and not empty. */
  predicate Given(q: Option<string>) {
    q.Some? && q.value != []
  }

  /** A `placement` other than `all` replaces the end-date alternative of
      the filter by a placement alternative. */
  predicate PlacementFilters(placement: Option<string>) {
    Given(placement) && placement.value != "all"
  }

  /** The Mongo filter `getActiveAds` builds from `?placement=&type=` at
      time `now`. */
  predicate Listed(ad: Ad, now: int, placement: Option<string>, adType: Option<string>) {
    && ad.isActive
    && ad.startDate <= now
    && (if PlacementFilters(placement)
        then PlacementName(ad.placement) == placement.value || ad.placement == Everywhere
        else ad.endDate.None? || ad.endDate.value >= now)
    && (Given(adType) ==> AdTypeName(ad.adType) == adType.value)
  }

  /** `.sort({ priority: -1, createdAt: -1 })`: `a` may come before `b`. */
  predicate Ranking(a: Ad, b: Ad) {
    a.priority > b.priority || (a.priority == b.priority && a.createdAt >= b.createdAt)
  }

  lemma RankingIsTotalPreorder()
    ensures TotalPreorder(Ranking)
  {
  }

  /** `.limit(10)`. */
  const ListingLimit: nat := 10

  function ListedBy(now: int, placement: Option<string>, adType: Option<string>): Ad -> bool {
    (a: Ad) => Listed(a, now, placement, adType)
  }

  /** Every ad that passes the filter, each as often as it is stored, in
      ranking order. */
  function Ranked(ads: seq<Ad>, now: int, placement: Option<string>, adType: Option<string>): (r: seq<Ad>)
    ensures forall i, j :: 0 <= i < j < |r| ==> Ranking(r[i], r[j])
    ensures forall a :: multiset(r)[a] == if Listed(a, now, placement, adType) then multiset(ads)[a] else 0
  {
    RankingIsTotalPreorder();
    SortBy(Filter(ads, ListedBy(now, placement, adType)), Ranking)
  }

  /** The ads the listing returns, before projection: the ranked ads, cut
      after ten. */
  function Served(ads: seq<Ad>, now: int, placement: Option<string>, adType: Option<string>): (r: seq<Ad>)
    ensures |r| <= ListingLimit
  {
    var s := Ranked(ads, now, placement, adType);
    s[..if |s| < ListingLimit then |s| else ListingLimit]
  }

  /** Every served ad is stored and passes the filter, and none is served
      more often than it is stored. */
  lemma ServedAreListed(ads: seq<Ad>, now: int, placement: Option<string>, adType: Option<string>)
    ensures var r := Served(ads, now, placement, adType);
      && (forall a :: a in r ==> a in ads && Listed(a, now, placement, adType))
      && (forall a :: multiset(r)[a] <= multiset(ads)[a])
  {
    var s := Ranked(ads, now, placement, adType);
    var r := Served(ads, now, placement, adType);
    PrefixIsSubMultiset(s, |r|);
    forall a | a in r
      ensures a in ads && Listed(a, now, placement, adType)
    {
      assert multiset(r)[a] > 0;
    }
  }

  /** The served ads come by priority, highest first, and among equal
      priorities newest first. */
  lemma ServedInRankingOrder(ads: seq<Ad>, now: int, placement: Option<string>, adType: Option<string>)
    ensures var r := Served(ads, now, placement, adType);
      forall i, j :: 0 <= i < j < |r| ==>
        r[i].priority > r[j].priority || (r[i].priority == r[j].priority && r[i].createdAt >= r[j].createdAt)
  {
    var s := Ranked(ads, now, placement, adType);
    var r := Served(ads, now, placement, adType);
    forall i, j | 0 <= i < j < |r|
      ensures Ranking(r[i], r[j])
    {
      assert r[i] == s[i] && r[j] == s[j];
    }
  }

  /** No passing ad left out of the listing ranks above a served one. */
  lemma ServedAreTop(ads: seq<Ad>, now: int, placement: Option<string>, adType: Option<string>)
    ensures var r := Served(ads, now, placement, adType);
      forall a, b ::
        a in r && b in ads && Listed(b, now, placement, adType) && multiset(r)[b] < multiset(ads)[b]
        ==> Ranking(a, b)
  {
    var s := Ranked(ads, now, placement, adType);
    var r := Served(ads, now, placement, adType);
    assert SortedBy(s, Ranking);
    PrefixOfSortedIsTop(s, Ranking, |r|);
    forall a, b | a in r && b in ads && Listed(b, now, placement, adType) && multiset(r)[b] < multiset(ads)[b]
      ensures Ranking(a, b)
    {
      assert b in multiset(s) - multiset(r);
    }
  }

  /** When fewer than ten ads pass, all of them are served. */
  lemma ServedAllWhenFew(ads: seq<Ad>, now: int, placement: Option<string>, adType: Option<string>)
    ensures var r := Served(ads, now, placement, adType);
      |r| < ListingLimit ==>
        forall b :: b in ads && Listed(b, now, placement, adType) ==> multiset(r)[b] == multiset(ads)[b]
  {
    var s := Ranked(ads, now, placement, adType);
    var r := Served(ads, now, placement, adType);
    if |r| < ListingLimit {
      assert r == s;
    }
  }

  /** `getActiveAds`: the served ads as the listing shows them. */
  function ActiveAds(ads: seq<Ad>, now: int, placement: Option<string>, adType: Option<string>): (r: seq<AdView>)
    ensures |r| == |Served(ads, now, placement, adType)| <= ListingLimit
    ensures forall k :: 0 <= k < |r| ==> r[k] == View(Served(ads, now, placement, adType)[k], now)
  {
    var s := Served(ads, now, placement, adType);
    seq(|s|, k requires 0 <= k < |s| => View(s[k], now))
  }

  method GetActiveAds(at: AdTable, now: int, placement: Option<string>, adType: Option<string>)
    returns (r: seq<AdView>)
    ensures r == ActiveAds(at.ads, now, placement, adType)
  {
    r := ActiveAds(at.ads, now, placement, adType);
  }

  /** Without a placement filter (or with `all`) the listing is exactly the
      currently active ads of the requested type. */
  lemma ListedWithoutPlacement(ad: Ad, now: int, placement: Option<string>, adType: Option<string>)
    requires !PlacementFilters(placement)
    ensures Listed(ad, now, placement, adType) <==>
      IsCurrentlyActive(ad, now) && (Given(adType) ==> AdTypeName(ad.adType) == adType.value)
  {
  }

  /** Hence every ad served without a placement filter is currently active. */
  lemma {:induction false} ServedWithoutPlacementIsCurrent(ads: seq<Ad>, now: int, placement: Option<string>, adType: Option<string>)
    requires !PlacementFilters(placement)
    ensures forall a :: a in Served(ads, now, placement, adType) ==> IsCurrentlyActive(a, now)
  {
    ServedAreListed(ads, now, placement, adType);
    forall a | a in Served(ads, now, placement, adType)
      ensures IsCurrentlyActive(a, now)
    {
      ListedWithoutPlacement(a, now, placement, adType);
    }
  }

  /** With a placement filter, an ad of that placement or of `all` passes
      whatever its end date: one that expired before `now` is still
      listed, although it is not currently active. */
  lemma PlacementIgnoresEndDate(ad: Ad, now: int, placement: string)
    requires placement != [] && placement != "all"
    requires ad.isActive && ad.startDate <= now
    requires ad.placement == Everywhere || PlacementName(ad.placement) == placement
    requires ad.endDate.Some? && ad.endDate.value < now
    ensures Listed(ad, now, Some(placement), None)
    ensures !IsCurrentlyActive(ad, now)
  {
  }

  /** A concrete instance: an ad shown everywhere that ended at time 5 is
      still listed at time 10 for `?placement=home`, and the listing itself
      shows it as not currently active. */
  lemma ExpiredAdListedForHome()
    ensures var ad := Ad(0, "Sale", "Half price", "ad.jpeg", None, Banner, Everywhere, true,
      0, Some(5), 0, 0, AnyRole, None, None, None, 1, 0, 0);
      && Served([ad], 10, Some("home"), None) == [ad]
      && !IsCurrentlyActive(ad, 10)
      && !ActiveAds([ad], 10, Some("home"), None)[0].isCurrentlyActive
  {
    var ad := Ad(0, "Sale", "Half price", "ad.jpeg", None, Banner, Everywhere, true,
      0, Some(5), 0, 0, AnyRole, None, None, None, 1, 0, 0);
    PlacementIgnoresEndDate(ad, 10, "home");
    ServedAreListed([ad], 10, Some("home"), None);
    ServedAllWhenFew([ad], 10, Some("home"), None);
    var r := Served([ad], 10, Some("home"), None);
    assert multiset([ad])[ad] == 1;
    assert multiset(r)[ad] == 1;
    assert ad in r;
    assert |r| == 1 by {
      assert forall a :: a in r ==> a == ad;
      assert |multiset(r)| == 1 by {
        assert multiset(r) == multiset{ad};
      }
    }
  }

  /** A placement filter admits only ads of that placement or of `all`. */
  lemma PlacementFilterExact(ad: Ad, now: int, placement: Option<string>, adType: Option<string>)
    requires PlacementFilters(placement) && Listed(ad, now, placement, adType)
    ensures ad.placement == Everywhere || ParsePlacement(placement.value) == Some(ad.placement)
  {
    NamesParse(ad.adType, ad.placement, ad.userRole);
  }

  /** A type filter admits only ads of exactly that type, so a type outside
      the enum lists nothing. */
  lemma {:induction false} TypeFilterExact(ads: seq<Ad>, now: int, placement: Option<string>, adType: Option<string>)
    requires Given(adType)
    ensures forall a :: a in Served(ads, now, placement, adType) ==> ParseAdType(adType.value) == Some(a.adType)
    ensures ParseAdType(adType.value).None? ==> Served(ads, now, placement, adType) == []
  {
    ServedAreListed(ads, now, placement, adType);
    var r := Served(ads, now, placement, adType);
    forall a | a in r
      ensures ParseAdType(adType.value) == Some(a.adType)
    {
      NamesParse(a.adType, a.placement, a.userRole);
    }
    if ParseAdType(adType.value).None? && r != [] {
      assert false;
    }
  }

  /** Replacing one ad by another with the same id that also passes the
      schema keeps the table valid. */
  lemma ReplaceKeepsValid(ads: seq<Ad>, nextId: nat, i: nat, a: Ad)
    requires AdsValid(ads, nextId)
    requires i < |ads| && a.id == ads[i].id && SchemaValid(a)
    ensures AdsValid(ads[i := a], nextId)
  {
    var t := ads[i := a];
    forall j, k | 0 <= j < |t| && 0 <= k < |t| && j != k
      ensures t[j].id != t[k].id
    {
      assert t[j].id == ads[j].id && t[k].id == ads[k].id;
    }
  }

  /** The ads after `$inc: { impressionCount: 1 }` on ad `id`, if any. */
  function Impressed(ads: seq<Ad>, id: AdId): (r: seq<Ad>)
    ensures |r| == |ads|
    ensures forall k :: 0 <= k < |ads| && ads[k].id != id ==> r[k] == ads[k]
    ensures AdIndex(ads, id).None? ==> r == ads
    ensures AdIndex(ads, id).Some? ==>
      var i := AdIndex(ads, id).value;
      && r[i].impressionCount == ads[i].impressionCount + 1
      && r[i].(impressionCount := ads[i].impressionCount) == ads[i]
      && forall k :: 0 <= k < |ads| && k != i ==> r[k] == ads[k]
  {
    match AdIndex(ads, id)
    case None => ads
    case Some(i) => ads[i := ads[i].(impressionCount := ads[i].impressionCount + 1)]
  }

  /** `trackImpression` always reports success; an unknown id changes
      nothing, a known one gets one more impression and nothing else. */
  method TrackImpression(at: AdTable, id: AdId) returns (message: string)
    requires at.Valid()
    modifies at
    ensures at.Valid() && at.nextId == old(at.nextId)
    ensures at.ads == Impressed(old(at.ads), id)
    ensures AdIndex(old(at.ads), id).None? ==> at.ads == old(at.ads)
    ensures AdIndex(old(at.ads), id).Some? ==>
      var i := AdIndex(old(at.ads), id).value;
      at.ads == old(at.ads)[i := old(at.ads)[i].(impressionCount := old(at.ads)[i].impressionCount + 1)]
    ensures message == "Impression tracked"
  {
    var i := AdIndex(at.ads, id);
    if i.Some? {
      var a := at.ads[i.value];
      ReplaceKeepsValid(at.ads, at.nextId, i.value, a.(impressionCount := a.impressionCount + 1));
      at.ads := at.ads[i.value := a.(impressionCount := a.impressionCount + 1)];
    }
    message := "Impression tracked";
  }

  /** `trackClick`: one more click and the ad's link, or 404. */
  method TrackClick(at: AdTable, id: AdId) returns (r: Result<Option<string>, Failure>)
    requires at.Valid()
    modifies at
    ensures at.Valid() && at.nextId == old(at.nextId)
    ensures r.Err? <==> AdIndex(old(at.ads), id).None?
    ensures r.Err? ==> r.error == Failure(404, "Ad not found") && at.ads == old(at.ads)
    ensures r.Ok? ==>
      var i := AdIndex(old(at.ads), id).value;
      && r.value == old(at.ads)[i].link
      && at.ads == old(at.ads)[i := old(at.ads)[i].(clickCount := old(at.ads)[i].clickCount + 1)]
  {
    var i := AdIndex(at.ads, id);
    if i.None? {
      return Err(Failure(404, "Ad not found"));
    }
    var a := at.ads[i.value];
    ReplaceKeepsValid(at.ads, at.nextId, i.value, a.(clickCount := a.clickCount + 1));
    at.ads := at.ads[i.value := a.(clickCount := a.clickCount + 1)];
    r := Ok(a.link);
  }

  /** The ads with the `isActive` flag of the ad at position `i` negated. */
  function Toggled(ads: seq<Ad>, i: nat): (r: seq<Ad>)
    requires i < |ads|
    ensures |r| == |ads| && r[i].isActive == !ads[i].isActive
    ensures r[i].(isActive := ads[i].isActive) == ads[i]
    ensures forall k :: 0 <= k < |ads| && k != i ==> r[k] == ads[k]
  {
    ads[i := ads[i].(isActive := !ads[i].isActive)]
  }

  /** Toggling an ad finds it again at the same position, and toggling it
      twice restores the table. */
  lemma {:induction false} ToggleTwiceRestores(ads: seq<Ad>, id: AdId)
    requires AdIndex(ads, id).Some?
    ensures var i := AdIndex(ads, id).value;
      && AdIndex(Toggled(ads, i), id) == Some(i)
      && Toggled(Toggled(ads, i), i) == ads
  {
    var i := AdIndex(ads, id).value;
    var t := Toggled(ads, i);
    assert t[i].id == id;
    var k := AdIndex(t, id);
    assert k.Some?;
    assert Toggled(t, i) == ads;
  }

  /** `toggleAdStatus`: the ad with `isActive` negated and saved, or 404.
      Saving re-runs the schema validators on the loaded document; the ad
      passed them when it was created and toggling changes no validated
      path, so the save does not fail. */
  method ToggleAdStatus(at: AdTable, id: AdId) returns (r: Result<Ad, Failure>)
    requires at.Valid()
    modifies at
    ensures at.Valid() && at.nextId == old(at.nextId)
    ensures r.Err? <==> AdIndex(old(at.ads), id).None?
    ensures r.Err? ==> r.error == Failure(404, "Ad not found") && at.ads == old(at.ads)
    ensures r.Ok? ==>
      var i := AdIndex(old(at.ads), id).value;
      && at.ads == Toggled(old(at.ads), i)
      && r.value == at.ads[i]
      && SchemaValid(r.value)
  {
    var i := AdIndex(at.ads, id);
    if i.None? {
      return Err(Failure(404, "Ad not found"));
    }
    var a := at.ads[i.value];
    ReplaceKeepsValid(at.ads, at.nextId, i.value, a.(isActive := !a.isActive));
    at.ads := Toggled(at.ads, i.value);
    r := Ok(at.ads[i.value]);
  }

  /** The document handed to `Ad.create`: the body, with `image` replaced
      by the uploaded file's stored name when a file came with the request. */
  function WithUpload(body: AdBody, file: Option<string>): (doc: AdBody)
    ensures doc.image == (if file.Some? then file else body.image)
    ensures doc.(image := body.image) == body
  {
    if file.Some? then body.(image := file) else body
  }

  /** Appending a schema-valid ad under the next id keeps the table valid. */
  lemma AppendKeepsValid(ads: seq<Ad>, nextId: nat, a: Ad)
    requires AdsValid(ads, nextId)
    requires a.id == nextId && SchemaValid(a)
    ensures AdsValid(ads + [a], nextId + 1)
  {
    var t := ads + [a];
    forall j, k | 0 <= j < |t| && 0 <= k < |t| && j != k
      ensures t[j].id != t[k].id
    {
      if j < |ads| && k < |ads| {
        assert t[j] == ads[j] && t[k] == ads[k];
      }
    }
  }

  /** `createAd`: the document with the upload's file name, created for the
      calling admin. A document the schema rejects creates nothing. */
  method CreateAd(at: AdTable, body: AdBody, file: Option<string>, caller: UserId, now: int)
    returns (r: Result<Ad, set<AdPath>>)
    requires at.Valid()
    modifies at
    ensures at.Valid()
    ensures r == NewAd(WithUpload(body, file), old(at.nextId), caller, now)
    ensures r.Err? ==> at.ads == old(at.ads) && at.nextId == old(at.nextId)
    ensures r.Ok? ==> at.ads == old(at.ads) + [r.value] && at.nextId == old(at.nextId) + 1
    ensures r.Ok? ==> r.value.createdBy == caller && SchemaValid(r.value)
  {
    r := NewAd(WithUpload(body, file), at.nextId, caller, now);
    if r.Ok? {
      AppendKeepsValid(at.ads, at.nextId, r.value);
      at.ads := at.ads + [r.value];
      at.nextId := at.nextId + 1;
    }
  }

  /** Removing the ad at position `i` from a valid table removes exactly
      the ads with its id. */
  lemma RemoveUniqueId(ads: seq<Ad>, nextId: nat, i: nat)
    requires AdsValid(ads, nextId) && i < |ads|
    ensures forall a :: a in RemoveAt(ads, i) <==> a in ads && a.id != ads[i].id
  {
    var t := RemoveAt(ads, i);
    forall a | a in t
      ensures a in ads && a.id != ads[i].id
    {
      var k :| 0 <= k < |t| && t[k] == a;
      var k' := if k < i then k else k + 1;
      assert a == ads[k'] && k' != i;
    }
    forall a | a in ads && a.id != ads[i].id
      ensures a in t
    {
      var k :| 0 <= k < |ads| && ads[k] == a;
      if k < i {
        assert t[k] == a;
      } else {
        assert t[k - 1] == a;
      }
    }
  }

  /** Removing an ad keeps the table valid. */
  lemma RemoveKeepsValid(ads: seq<Ad>, nextId: nat, i: nat)
    requires AdsValid(ads, nextId) && i < |ads|
    ensures AdsValid(RemoveAt(ads, i), nextId)
  {
    var t := RemoveAt(ads, i);
    forall j, k | 0 <= j < |t| && 0 <= k < |t| && j != k
      ensures t[j].id != t[k].id
    {
      var j' := if j < i then j else j + 1;
      var k' := if k < i then k else k + 1;
      assert t[j] == ads[j'] && t[k] == ads[k'];
    }
  }

  /** `deleteAd`: removes the ad, or 404. */
  method DeleteAd(at: AdTable, id: AdId) returns (r: Result<Ad, Failure>)
    requires at.Valid()
    modifies at
    ensures at.Valid() && at.nextId == old(at.nextId)
    ensures r.Err? <==> AdIndex(old(at.ads), id).None?
    ensures r.Err? ==> r.error == Failure(404, "Ad not found") && at.ads == old(at.ads)
    ensures r.Ok? ==>
      && r.value.id == id
      && at.ads == RemoveAt(old(at.ads), AdIndex(old(at.ads), id).value)
      && forall a :: a in at.ads <==> a in old(at.ads) && a.id != id
  {
    var i := AdIndex(at.ads, id);
    if i.None? {
      return Err(Failure(404, "Ad not found"));
    }
    r := Ok(at.ads[i.value]);
    RemoveUniqueId(at.ads, at.nextId, i.value);
    RemoveKeepsValid(at.ads, at.nextId, i.value);
    at.ads := RemoveAt(at.ads, i.value);
  }
}

=== FILE: ad_model.dfy ===
/** The Ad schema (models/ad.models.js): its enums, the defaults and
    validators Mongoose applies when an ad is created, and the
    `isCurrentlyActive` virtual, with the current time as a parameter. */
module AdModel {
  import opened Common
  import opened Text

  datatype AdType = Banner | Sidebar | Popup | Inline
  datatype Placement = Home | Playgrounds | Profile | Chat | Everywhere
  datatype AudienceRole = AnyRole | UserRole | OwnerRole | AdminRole

  function AdTypeName(t: AdType): string {
    match t
    case Banner => "banner"
    case Sidebar => "sidebar"
    case Popup => "popup"
    case Inline => "inline"
  }

  function ParseAdType(name: string): (r: Option<AdType>)
    ensures r.Some? <==> name in {"banner", "sidebar", "popup", "inline"}
    ensures r.Some? ==> AdTypeName(r.value) == name
  {
    if name == "banner" then Some(Banner)
    else if name == "sidebar" then Some(Sidebar)
    else if name == "popup" then Some(Popup)
    else if name == "inline" then Some(Inline)
    else None
  }

  /** The placement `all` is written `Everywhere` here. */
  function PlacementName(p: Placement): string {
    match p
    case Home => "home"
    case Playgrounds => "playgrounds"
    case Profile => "profile"
    case Chat => "chat"
    case Everywhere => "all"
  }

  function ParsePlacement(name: string): (r: Option<Placement>)
    ensures r.Some? <==> name in {"home", "playgrounds", "profile", "chat", "all"}
    ensures r.Some? ==> PlacementName(r.value) == name
  {
    if name == "home" then Some(Home)
    else if name == "playgrounds" then Some(Playgrounds)
    else if name == "profile" then Some(Profile)
    else if name == "chat" then Some(Chat)
    else if name == "all" then Some(Everywhere)
    else None
  }

  function RoleName(r: AudienceRole): string {
    match r
    case AnyRole => "all"
    case UserRole => "user"
    case OwnerRole => "owner"
    case AdminRole => "admin"
  }

  function ParseRole(name: string): (r: Option<AudienceRole>)
    ensures r.Some? <==> name in {"all", "user", "owner", "admin"}
    ensures r.Some? ==> RoleName(r.value) == name
  {
    if name == "all" then Some(AnyRole)
    else if name == "user" then Some(UserRole)
    else if name == "owner" then Some(OwnerRole)
    else if name == "admin" then Some(AdminRole)
    else None
  }

  /** Every enum value parses back from its name. */
  lemma NamesParse(t: AdType, p: Placement, r: AudienceRole)
    ensures ParseAdType(AdTypeName(t)) == Some(t)
    ensures ParsePlacement(PlacementName(p)) == Some(p)
    ensures ParseRole(RoleName(r)) == Some(r)
  {
  }

  /** A stored ad. Times are milliseconds since the epoch. */
  datatype Ad = Ad(
    id: AdId,
    title: string,
    description: string,
    image: string,
    link: Option<string>,
    adType: AdType,
    placement: Placement,
    isActive: bool,
    startDate: int,
    endDate: Option<int>,
    clickCount: int,
    impressionCount: int,
    userRole: AudienceRole,
    minAge: Option<int>,
    maxAge: Option<int>,
    location: Option<string>,
    priority: int,
    createdBy: UserId,
    createdAt: int)

  /** The document handed to `Ad.create`: the request body, with `image`
      already replaced by the uploaded file's name when there is one. */
  datatype AdBody = AdBody(
    title: Option<string>,
    description: Option<string>,
    image: Option<string>,
    link: Option<string>,
    adType: Option<string>,
    placement: Option<string>,
    isActive: Option<bool>,
    startDate: Option<int>,
    endDate: Option<int>,
    clickCount: Option<int>,
    impressionCount: Option<int>,
    userRole: Option<string>,
    minAge: Option<int>,
    maxAge: Option<int>,
    location: Option<string>,
    priority: Option<int>,
    createdAt: Option<int>)

  datatype AdPath =
    | TitlePath | DescriptionPath | ImagePath | LinkPath | TypePath | PlacementPath
    | EndDatePath | RolePath | MinAgePath | MaxAgePath | PriorityPath

  /** `^https?:\/\/.+` on the trimmed link: the scheme, then at least one
      character that is not a line terminator. An empty link passes. */
  predicate LinkOk(v: string) {
    || v == []
    || (StartsWith(v, "http://") && |v| > 7 && !IsLineTerminator(v[7]))
    || (StartsWith(v, "https://") && |v| > 8 && !IsLineTerminator(v[8]))
  }

  /** `required` + `trim` + `maxLength: n` on a string path. */
  predicate TrimmedTextOk(v: Option<string>, n: nat) {
    v.Some? && Trim(v.value) != [] && |Trim(v.value)| <= n
  }

  predicate AgeOk(a: Option<int>) {
    a.None? || 13 <= a.value <= 100
  }

  /** The validator of path `p` rejects `body` when it is created at time
      `now` (the default `startDate`). */
  predicate Rejects(body: AdBody, now: int, p: AdPath) {
    match p
    case TitlePath => !TrimmedTextOk(body.title, 100)
    case DescriptionPath => !TrimmedTextOk(body.description, 500)
    case ImagePath => body.image.None? || body.image.value == []
    case LinkPath => body.link.Some? && !LinkOk(Trim(body.link.value))
    case TypePath => body.adType.Some? && ParseAdType(body.adType.value).None?
    case PlacementPath => body.placement.Some? && ParsePlacement(body.placement.value).None?
    case EndDatePath => body.endDate.Some? && body.endDate.value <= body.startDate.GetOr(now)
    case RolePath => body.userRole.Some? && ParseRole(body.userRole.value).None?
    case MinAgePath => !AgeOk(body.minAge)
    case MaxAgePath => !AgeOk(body.maxAge)
    case PriorityPath => body.priority.Some? && !(1 <= body.priority.value <= 10)
  }

  const AllPaths: set<AdPath> :=
    {TitlePath, DescriptionPath, ImagePath, LinkPath, TypePath, PlacementPath,
     EndDatePath, RolePath, MinAgePath, MaxAgePath, PriorityPath}

  lemma AllPathsListed()
    ensures forall p :: p in AllPaths
  {
    forall p ensures p in AllPaths {
      match p
      case TitlePath =>
      case DescriptionPath =>
      case ImagePath =>
      case LinkPath =>
      case TypePath =>
      case PlacementPath =>
      case EndDatePath =>
      case RolePath =>
      case MinAgePath =>
      case MaxAgePath =>
      case PriorityPath =>
    }
  }

  /** Every path whose validator rejects `body`; Mongoose reports them
      together. */
  function AdErrors(body: AdBody, now: int): (errs: set<AdPath>)
    ensures forall p :: p in errs <==> Rejects(body, now, p)
  {
    AllPathsListed();
    set p | p in AllPaths && Rejects(body, now, p)
  }

  /** What every ad the schema accepted satisfies. */
  predicate SchemaValid(ad: Ad) {
    && ad.title != [] && |ad.title| <= 100 && IsTrimmed(ad.title)
    && ad.description != [] && |ad.description| <= 500 && IsTrimmed(ad.description)
    && ad.image != []
    && (ad.link.Some? ==> LinkOk(ad.link.value))
    && (ad.endDate.Some? ==> ad.endDate.value > ad.startDate)
    && AgeOk(ad.minAge) && AgeOk(ad.maxAge)
    && 1 <= ad.priority <= 10
  }

  /** No validator rejects the body: the three trimmed texts, and the other
      fields. */
  predicate Admissible(body: AdBody, now: int) {
    TextsAdmissible(body, now) && FieldsAdmissible(body, now)
  }

  predicate TextsAdmissible(body: AdBody, now: int) {
    !Rejects(body, now, TitlePath) && !Rejects(body, now, DescriptionPath) && !Rejects(body, now, LinkPath)
  }

  predicate FieldsAdmissible(body: AdBody, now: int) {
    && !Rejects(body, now, ImagePath)
    && !Rejects(body, now, TypePath) && !Rejects(body, now, PlacementPath)
    && !Rejects(body, now, EndDatePath) && !Rejects(body, now, RolePath)
    && !Rejects(body, now, MinAgePath) && !Rejects(body, now, MaxAgePath)
    && !Rejects(body, now, PriorityPath)
  }

  /** A body is admissible exactly when no path is reported. */
  lemma AdmissibleIffNoErrors(body: AdBody, now: int)
    ensures Admissible(body, now) <==> AdErrors(body, now) == {}
  {
    if Admissible(body, now) {
      forall p ensures p !in AdErrors(body, now) {
        match p
        case TitlePath =>
        case DescriptionPath =>
        case ImagePath =>
        case LinkPath =>
        case TypePath =>
        case PlacementPath =>
        case EndDatePath =>
        case RolePath =>
        case MinAgePath =>
        case MaxAgePath =>
        case PriorityPath =>
      }
    } else {
      if AdErrors(body, now) == {} {
        Accepts(body, now, TitlePath);
        Accepts(body, now, DescriptionPath);
        Accepts(body, now, ImagePath);
        Accepts(body, now, LinkPath);
        Accepts(body, now, TypePath);
        Accepts(body, now, PlacementPath);
        Accepts(body, now, EndDatePath);
        Accepts(body, now, RolePath);
        Accepts(body, now, MinAgePath);
        Accepts(body, now, MaxAgePath);
        Accepts(body, now, PriorityPath);
        assert false;
      }
    }
  }

  /** An admissible body has every required field, and its trimmed texts
      are already in their stored form. */
  lemma NoErrors(body: AdBody, now: int)
    requires Admissible(body, now)
    ensures body.title.Some? && body.description.Some? && body.image.Some? && body.image.value != []
    ensures var t := Trim(body.title.value); t != [] && |t| <= 100 && IsTrimmed(t)
    ensures var d := Trim(body.description.value); d != [] && |d| <= 500 && IsTrimmed(d)
    ensures body.link.Some? ==> LinkOk(Trim(body.link.value))
    ensures body.adType.Some? ==> ParseAdType(body.adType.value).Some?
    ensures body.placement.Some? ==> ParsePlacement(body.placement.value).Some?
    ensures body.userRole.Some? ==> ParseRole(body.userRole.value).Some?
    ensures body.endDate.Some? ==> body.endDate.value > body.startDate.GetOr(now)
    ensures AgeOk(body.minAge) && AgeOk(body.maxAge)
    ensures 1 <= body.priority.GetOr(1) <= 10
  {
    TextsStored(body, now);
    FieldsChecked(body, now);
  }

  lemma TextsStored(body: AdBody, now: int)
    requires TextsAdmissible(body, now)
    ensures body.title.Some? && body.description.Some?
    ensures var t := Trim(body.title.value); t != [] && |t| <= 100 && IsTrimmed(t)
    ensures var d := Trim(body.description.value); d != [] && |d| <= 500 && IsTrimmed(d)
    ensures body.link.Some? ==> LinkOk(Trim(body.link.value))
  {
    StoredText(body.title, 100);
    StoredText(body.description, 500);
  }

  lemma FieldsChecked(body: AdBody, now: int)
    requires FieldsAdmissible(body, now)
    ensures body.image.Some? && body.image.value != []
    ensures body.adType.Some? ==> ParseAdType(body.adType.value).Some?
    ensures body.placement.Some? ==> ParsePlacement(body.placement.value).Some?
    ensures body.userRole.Some? ==> ParseRole(body.userRole.value).Some?
    ensures body.endDate.Some? ==> body.endDate.value > body.startDate.GetOr(now)
    ensures AgeOk(body.minAge) && AgeOk(body.maxAge)
    ensures 1 <= body.priority.GetOr(1) <= 10
  {
  }

  /** A text that passes `required` + `trim` + `maxLength: n` is stored
      trimmed, non-empty and within `n` characters. */
  lemma StoredText(v: Option<string>, n: nat)
    requires TrimmedTextOk(v, n)
    ensures var t := Trim(v.value); t != [] && |t| <= n && IsTrimmed(t)
  {
    TrimIdempotent(v.value);
  }

  lemma Accepts(body: AdBody, now: int, p: AdPath)
    requires AdErrors(body, now) == {}
    ensures !Rejects(body, now, p)
  {
    assert p !in AdErrors(body, now);
  }

  /** `ad` holds what `body` gives, each text trimmed and each enum name
      parsed, and the schema default for every field `body` leaves out.
      The `timestamps` option fills `createdAt` only when the body does not
      supply one. */
  predicate Stores(ad: Ad, body: AdBody, now: int) {
    && body.title.Some? && ad.title == Trim(body.title.value)
    && body.description.Some? && ad.description == Trim(body.description.value)
    && body.image.Some? && ad.image == body.image.value
    && ad.link == TrimOption(body.link)
    && (body.adType.Some? ==> AdTypeName(ad.adType) == body.adType.value)
    && (body.adType.None? ==> ad.adType == Banner)
    && (body.placement.Some? ==> PlacementName(ad.placement) == body.placement.value)
    && (body.placement.None? ==> ad.placement == Everywhere)
    && ad.isActive == body.isActive.GetOr(true)
    && ad.startDate == body.startDate.GetOr(now)
    && ad.endDate == body.endDate
    && ad.clickCount == body.clickCount.GetOr(0)
    && ad.impressionCount == body.impressionCount.GetOr(0)
    && (body.userRole.Some? ==> RoleName(ad.userRole) == body.userRole.value)
    && (body.userRole.None? ==> ad.userRole == AnyRole)
    && ad.minAge == body.minAge && ad.maxAge == body.maxAge
    && ad.location == body.location
    && ad.priority == body.priority.GetOr(1)
    && ad.createdAt == body.createdAt.GetOr(now)
  }

  /** The document `Ad.create(body)` stores for `creator` at time `now`
      under id `id`, or the paths that failed. */
  function NewAd(body: AdBody, id: AdId, creator: UserId, now: int): (r: Result<Ad, set<AdPath>>)
    ensures r.Err? <==> AdErrors(body, now) != {}
    ensures r.Err? ==> r.error == AdErrors(body, now)
    ensures r.Ok? ==> SchemaValid(r.value)
    ensures r.Ok? ==> body.title.Some? && body.description.Some? && body.image.Some?
    ensures r.Ok? ==> r.value.id == id && r.value.createdBy == creator
    ensures r.Ok? ==> Stores(r.value, body, now)
  {
    AdmissibleIffNoErrors(body, now);
    if !Admissible(body, now) then Err(AdErrors(body, now))
    else
      NoErrors(body, now);
      Ok(Ad(
        id,
        Trim(body.title.value),
        Trim(body.description.value),
        body.image.value,
        TrimOption(body.link),
        if body.adType.Some? then ParseAdType(body.adType.value).value else Banner,
        if body.placement.Some? then ParsePlacement(body.placement.value).value else Everywhere,
        body.isActive.GetOr(true),
        body.startDate.GetOr(now),
        body.endDate,
        body.clickCount.GetOr(0),
        body.impressionCount.GetOr(0),
        if body.userRole.Some? then ParseRole(body.userRole.value).value else AnyRole,
        body.minAge,
        body.maxAge,
        body.location,
        body.priority.GetOr(1),
        creator,
        body.createdAt.GetOr(now)))
  }

  /** Fields left out take their defaults: a banner shown everywhere,
      active from `now`, to anyone, with priority 1 and no clicks or
      impressions. */
  lemma AdDefaults(body: AdBody, id: AdId, creator: UserId, now: int)
    requires NewAd(body, id, creator, now).Ok?
    ensures var ad := NewAd(body, id, creator, now).value;
      && (body.adType.None? ==> ad.adType == Banner)
      && (body.placement.None? ==> ad.placement == Everywhere)
      && (body.isActive.None? ==> ad.isActive)
      && (body.startDate.None? ==> ad.startDate == now)
      && (body.userRole.None? ==> ad.userRole == AnyRole)
      && (body.priority.None? ==> ad.priority == 1)
      && (body.clickCount.None? ==> ad.clickCount == 0)
      && (body.impressionCount.None? ==> ad.impressionCount == 0)
      && (body.createdAt.None? ==> ad.createdAt == now)
  {
  }

  /** The length limit admits exactly 100 characters, although the
      validator's message speaks of "less than 100". */
  lemma TitleOfLengthLimit(t: string)
    requires |t| == 100 && IsTrimmed(t) && t != []
    ensures TrimmedTextOk(Some(t), 100)
    ensures !TrimmedTextOk(Some(t + "x"), 100)
  {
    TrimOfTrimmed(t);
    var u := t + "x";
    assert |u| == 101;
    assert IsTrimmed(u) by {
      assert u[0] == t[0];
      assert u[100] == 'x';
    }
    TrimOfTrimmed(u);
    assert |Trim(u)| == 101;
  }

  /** The links the validator accepts and refuses. */
  lemma LinkExamples()
    ensures LinkOk("") && LinkOk("https://x") && LinkOk("http://a.b/c")
    ensures !LinkOk("https://") && !LinkOk("ftp://x") && !LinkOk("www.x.com")
  {
    assert "https://x"[..8] == "https://";
    assert "http://a.b/c"[..7] == "http://";
    assert "https://"[4] == 's';
    assert "ftp://x"[0] == 'f';
    assert "www.x.com"[0] == 'w';
  }

  /** The `isCurrentlyActive` virtual at time `now`. */
  predicate IsCurrentlyActive(ad: Ad, now: int) {
    ad.isActive && now >= ad.startDate && (ad.endDate.None? || now <= ad.endDate.value)
  }

  /** An ad is current only within its dates: before `startDate` and after
      `endDate` it is not, whatever `isActive` says. */
  lemma CurrentOnlyWithinDates(ad: Ad, now: int)
    ensures now < ad.startDate ==> !IsCurrentlyActive(ad, now)
    ensures ad.endDate.Some? && now > ad.endDate.value ==> !IsCurrentlyActive(ad, now)
    ensures IsCurrentlyActive(ad, now) ==> ad.isActive
  {
  }

  /** Ids are unique and below the next id; every ad passed the schema. */
  ghost predicate AdsValid(ads: seq<Ad>, nextId: nat) {
    && (forall i :: 0 <= i < |ads| ==> ads[i].id < nextId && SchemaValid(ads[i]))
    && (forall i, j :: 0 <= i < |ads| && 0 <= j < |ads| && i != j ==> ads[i].id != ads[j].id)
  }

  function AdIndex(ads: seq<Ad>, id: AdId): (r: Option<nat>)
    ensures r.None? <==> forall i :: 0 <= i < |ads| ==> ads[i].id != id
    ensures r.Some? ==> r.value < |ads| && ads[r.value].id == id
    ensures r.Some? ==> forall j :: 0 <= j < r.value ==> ads[j].id != id
  {
    FirstIndex(ads, (a: Ad) => a.id == id)
  }

  /** The ads collection, in insertion order. */
  class AdTable {
    var ads: seq<Ad>
    var nextId: AdId

    ghost predicate Valid()
      reads this
    {
      AdsValid(ads, nextId)
    }

    constructor ()
      ensures Valid() && ads == []
    {
      ads := [];
      nextId := 0;
    }
  }
}

=== FILE: booking_controller.dfy ===
/** The booking controller (controllers/bookingController.js): the status
    transitions `confirmBooking` and `cancelBooking`, and the plain CRUD
    endpoints `createBooking`, `updateBooking`, `deleteBooking`,
    `getMyBookings` and `getPlaygroundBookings`, which go through neither
    the overlap check nor the transitions. */
module BookingController {
  import opened Common
  import opened BookingModel
  import opened NotificationModel
  import opened NotificationController
  import opened BookingNotices
  import opened PlaygroundController

  /** The AppError every lookup by id raises when nothing matches. */
  function NotFound(id: BookingId): (f: Failure)
    ensures f.code == 404
  {
    Failure(404, "No booking found with id: " + IdText(id))
  }

  /** The guard and assignment of `confirmBooking` on a found booking: only
      an already confirmed booking is refused; a canceled or completed one
      is confirmed like a pending one. */
  function Confirm(b: Booking): (r: Result<Booking, Failure>)
    ensures r.Err? <==> b.status == Confirmed
    ensures r.Err? ==> r.error == Failure(409, "This booking is already confirmed!")
    ensures r.Ok? ==> r.value.status == Confirmed && r.value == b.(status := r.value.status)
  {
    if b.status == Confirmed then Err(Failure(409, "This booking is already confirmed!"))
    else Ok(b.(status := Confirmed))
  }

  /** The guards and assignment of `cancelBooking` on a found booking: a
      canceled booking gives 409, a completed one 400, and a pending or
      confirmed one becomes canceled. */
  function Cancel(b: Booking): (r: Result<Booking, Failure>)
    ensures r.Ok? <==> (b.status == Pending || b.status == Confirmed)
    ensures b.status == Canceled ==> r == Err(Failure(409, "This booking is already canceled!"))
    ensures b.status == Completed ==> r == Err(Failure(400, "Cannot cancel a completed booking!"))
    ensures r.Ok? ==> r.value.status == Canceled && r.value == b.(status := r.value.status)
  {
    if b.status == Canceled then Err(Failure(409, "This booking is already canceled!"))
    else if b.status == Completed then Err(Failure(400, "Cannot cancel a completed booking!"))
    else
      assert b.status == Pending || b.status == Confirmed;
      Ok(b.(status := Canceled))
  }

  /** A second confirmation, or a second cancellation, is refused. */
  lemma RepeatRefused(b: Booking)
    ensures Confirm(b).Ok? ==> Confirm(Confirm(b).value).Err?
    ensures Cancel(b).Ok? ==> Cancel(Cancel(b).value).Err?
  {
  }

  /** A canceled booking can be brought back by confirming it; nothing in
      the guard asks whether its slot has been taken since. */
  lemma ConfirmRevives(b: Booking)
    requires b.status == Canceled
    ensures Confirm(b).Ok? && Live(Confirm(b).value) && !Live(b)
  {
  }

  /** Confirming a canceled booking can break the playground's freedom from
      overlap: the slot it held was booked again while it was canceled. */
  lemma ConfirmCanBreakNoOverlap()
    ensures var old1 := Booking(0, Some(10), Some(12), 7, 1, 0.0, Canceled, 0);
      var other := Booking(1, Some(11), Some(13), 7, 2, 0.0, Pending, 0);
      && NoLiveOverlap([old1, other], 7)
      && Confirm(old1).Ok?
      && !NoLiveOverlap([Confirm(old1).value, other], 7)
  {
    var old1 := Booking(0, Some(10), Some(12), 7, 1, 0.0, Canceled, 0);
    var other := Booking(1, Some(11), Some(13), 7, 2, 0.0, Pending, 0);
    var rows := [Confirm(old1).value, other];
    assert rows[0].playground == 7 && rows[1].playground == 7;
    assert Live(rows[0]) && Live(rows[1]) && IntervalsOverlap(rows[0], rows[1]);
  }

  /** Turning a booking that is not live into anything else never removes a
      live booking, and a booking that stops being live never adds an
      overlap: cancelling keeps every playground free of overlap. */
  lemma {:induction false} CancelKeepsNoOverlap(rows: seq<Booking>, i: nat, pg: PlaygroundId)
    requires i < |rows|
    requires NoLiveOverlap(rows, pg)
    ensures NoLiveOverlap(rows[i := rows[i].(status := Canceled)], pg)
  {
    var rows' := rows[i := rows[i].(status := Canceled)];
    forall a, b | 0 <= a < |rows'| && 0 <= b < |rows'| && a != b
      && rows'[a].playground == pg && rows'[b].playground == pg
      && Live(rows'[a]) && Live(rows'[b])
      ensures !IntervalsOverlap(rows'[a], rows'[b])
    {
      assert a != i && b != i;
      assert rows'[a] == rows[a] && rows'[b] == rows[b];
    }
  }

  /** Removing a booking keeps every playground free of overlap. */
  lemma {:induction false} DeleteKeepsNoOverlap(rows: seq<Booking>, i: nat, pg: PlaygroundId)
    requires i < |rows|
    requires NoLiveOverlap(rows, pg)
    ensures NoLiveOverlap(RemoveAt(rows, i), pg)
  {
    var rows' := RemoveAt(rows, i);
    forall a, b | 0 <= a < |rows'| && 0 <= b < |rows'| && a != b
      && rows'[a].playground == pg && rows'[b].playground == pg
      && Live(rows'[a]) && Live(rows'[b])
      ensures !IntervalsOverlap(rows'[a], rows'[b])
    {
      var a' := if a < i then a else a + 1;
      var b' := if b < i then b else b + 1;
      assert rows'[a] == rows[a'] && rows'[b] == rows[b'];
    }
  }

  /** `confirmBooking`: 404 for an unknown id; 409 for a confirmed booking;
      otherwise the status is saved as confirmed, and then the booker and
      the owner are notified, failures swallowed. */
  method ConfirmBooking(bt: BookingTable, nt: NotificationTable, dir: Directory, id: BookingId, now: int,
                        fails: (bool, bool))
    returns (r: Result<Booking, Failure>)
    requires bt.Valid() && nt.Valid()
    modifies bt, nt
    ensures bt.Valid() && nt.Valid()
    ensures IndexOf(old(bt.rows), id).None? ==> r == Err(NotFound(id))
    ensures IndexOf(old(bt.rows), id).Some? ==> r == Confirm(old(bt.rows)[IndexOf(old(bt.rows), id).value])
    ensures r.Err? ==> bt.rows == old(bt.rows) && nt.log == old(nt.log)
    ensures r.Ok? ==> bt.rows == old(bt.rows)[IndexOf(old(bt.rows), id).value := r.value]
    ensures r.Ok? ==> Appended(old(nt.log), nt.log, Sent(dir, r.value, WasConfirmed, fails), now)
  {
    var i := IndexOf(bt.rows, id);
    if i.None? {
      return Err(NotFound(id));
    }
    r := Confirm(bt.rows[i.value]);
    if r.Err? {
      return;
    }
    bt.rows := bt.rows[i.value := r.value];
    Announce(nt, dir, r.value, WasConfirmed, now, fails);
  }

  /** `cancelBooking`: 404 for an unknown id; 409 or 400 for a canceled or
      completed booking; otherwise the status is saved as canceled and the
      two notices follow. No playground gains an overlap. */
  method CancelBooking(bt: BookingTable, nt: NotificationTable, dir: Directory, id: BookingId, now: int,
                       fails: (bool, bool))
    returns (r: Result<Booking, Failure>)
    requires bt.Valid() && nt.Valid()
    modifies bt, nt
    ensures bt.Valid() && nt.Valid()
    ensures IndexOf(old(bt.rows), id).None? ==> r == Err(NotFound(id))
    ensures IndexOf(old(bt.rows), id).Some? ==> r == Cancel(old(bt.rows)[IndexOf(old(bt.rows), id).value])
    ensures r.Err? ==> bt.rows == old(bt.rows) && nt.log == old(nt.log)
    ensures r.Ok? ==> bt.rows == old(bt.rows)[IndexOf(old(bt.rows), id).value := r.value]
    ensures r.Ok? ==> Appended(old(nt.log), nt.log, Sent(dir, r.value, WasCanceled, fails), now)
    ensures forall p :: NoLiveOverlap(old(bt.rows), p) ==> NoLiveOverlap(bt.rows, p)
  {
    var i := IndexOf(bt.rows, id);
    if i.None? {
      return Err(NotFound(id));
    }
    r := Cancel(bt.rows[i.value]);
    if r.Err? {
      return;
    }
    ghost var rows0 := bt.rows;
    bt.rows := bt.rows[i.value := r.value];
    forall p | NoLiveOverlap(rows0, p)
      ensures NoLiveOverlap(bt.rows, p)
    {
      CancelKeepsNoOverlap(rows0, i.value, p);
    }
    Announce(nt, dir, r.value, WasCanceled, now, fails);
  }

  /** `createBooking`: the request body goes to `Booking.create` as it is,
      with no overlap check and any status the enum allows; the two
      `booking_created` notices follow. */
  method CreateBooking(bt: BookingTable, nt: NotificationTable, dir: Directory, body: BookingBody, now: int,
                       fails: (bool, bool))
    returns (r: Result<Booking, set<Path>>)
    requires bt.Valid() && nt.Valid()
    modifies bt, nt
    ensures bt.Valid() && nt.Valid()
    ensures r == NewBooking(body, old(bt.nextId), bt.loadTime)
    ensures r.Err? ==> bt.rows == old(bt.rows) && nt.log == old(nt.log)
    ensures r.Ok? ==> bt.rows == old(bt.rows) + [r.value]
    ensures r.Ok? ==> Appended(old(nt.log), nt.log, Sent(dir, r.value, WasCreated, fails), now)
  {
    r := bt.Create(body);
    if r.Ok? {
      Announce(nt, dir, r.value, WasCreated, now, fails);
    }
  }

  /** `createBooking` accepts a live booking on top of another live one of
      the same playground. */
  lemma CreateBypassesOverlapCheck()
    ensures var held := Booking(0, Some(10), Some(12), 7, 1, 0.0, Pending, 0);
      var body := BookingBody(Some(11), Some(13), Some(7), Some(2), None, None, None);
      && NoLiveOverlap([held], 7)
      && NewBooking(body, 1, 0).Ok?
      && !NoLiveOverlap([held, NewBooking(body, 1, 0).value], 7)
  {
    var held := Booking(0, Some(10), Some(12), 7, 1, 0.0, Pending, 0);
    var body := BookingBody(Some(11), Some(13), Some(7), Some(2), None, None, None);
    assert Invalid(body) == {} by {
      assert forall p :: p !in Invalid(body);
    }
    var rows := [held, NewBooking(body, 1, 0).value];
    assert rows[0].playground == 7 && rows[1].playground == 7;
    assert Live(rows[0]) && Live(rows[1]) && IntervalsOverlap(rows[0], rows[1]);
  }

  /** The update validators `findByIdAndUpdate(..., { runValidators: true })`
      runs: only the paths being set are checked, so, for a patch that sets
      each field to a value or leaves it out, only an unknown status can
      fail. */
  function UpdateErrors(patch: BookingBody): (errs: set<Path>)
    ensures errs == {} <==> patch.status.None? || ParseStatus(patch.status.value).Some?
  {
    if patch.status.Some? && ParseStatus(patch.status.value).None? then {StatusPath} else {}
  }

  /** `b` with every field the patch sets replaced. */
  function Patched(b: Booking, patch: BookingBody): (r: Booking)
    requires UpdateErrors(patch) == {}
    ensures r.id == b.id
    ensures r.start == (if patch.start.Some? then patch.start else b.start)
    ensures r.end == (if patch.end.Some? then patch.end else b.end)
    ensures r.playground == patch.playground.GetOr(b.playground)
    ensures r.user == patch.user.GetOr(b.user)
    ensures r.cost == patch.cost.GetOr(b.cost)
    ensures patch.status.Some? ==> StatusName(r.status) == patch.status.value
    ensures patch.status.None? ==> r.status == b.status
    ensures r.createdAt == patch.createdAt.GetOr(b.createdAt)
  {
    Booking(
      b.id,
      if patch.start.Some? then patch.start else b.start,
      if patch.end.Some? then patch.end else b.end,
      patch.playground.GetOr(b.playground),
      patch.user.GetOr(b.user),
      patch.cost.GetOr(b.cost),
      if patch.status.Some? then ParseStatus(patch.status.value).value else b.status,
      patch.createdAt.GetOr(b.createdAt))
  }

  /** Why `updateBooking` fails: a rejected field, or no such booking. */
  datatype UpdateFailure = BadFields(paths: set<Path>) | Missing(failure: Failure)

  /** `updateBooking`: validate the patch, then apply it to the booking with
      this id, or 404. Neither the transitions nor the overlap check apply. */
  method UpdateBooking(bt: BookingTable, id: BookingId, patch: BookingBody)
    returns (r: Result<Booking, UpdateFailure>)
    requires bt.Valid()
    modifies bt
    ensures bt.Valid()
    ensures UpdateErrors(patch) != {} ==> r == Err(BadFields(UpdateErrors(patch)))
    ensures UpdateErrors(patch) == {} && IndexOf(old(bt.rows), id).None? ==> r == Err(Missing(NotFound(id)))
    ensures r.Err? ==> bt.rows == old(bt.rows)
    ensures r.Ok? ==> UpdateErrors(patch) == {} && IndexOf(old(bt.rows), id).Some?
    ensures r.Ok? ==> var i := IndexOf(old(bt.rows), id).value;
      r.value == Patched(old(bt.rows)[i], patch) && bt.rows == old(bt.rows)[i := r.value]
  {
    if UpdateErrors(patch) != {} {
      return Err(BadFields(UpdateErrors(patch)));
    }
    var i := IndexOf(bt.rows, id);
    if i.None? {
      return Err(Missing(NotFound(id)));
    }
    var b := Patched(bt.rows[i.value], patch);
    bt.rows := bt.rows[i.value := b];
    r := Ok(b);
  }

  /** An update moves a completed booking back to pending, which no
      transition allows. */
  lemma UpdateBypassesTransitions(b: Booking)
    requires b.status == Completed
    ensures Cancel(b).Err?
    ensures Patched(b, BookingBody(None, None, None, None, None, Some("pending"), None)).status == Pending
  {
  }

  /** An update runs no conflict check: setting a canceled booking back to
      pending over a live one creates an overlap. */
  lemma UpdateCanBreakNoOverlap()
    ensures var old1 := Booking(0, Some(10), Some(12), 7, 1, 0.0, Canceled, 0);
      var other := Booking(1, Some(11), Some(13), 7, 2, 0.0, Pending, 0);
      var patch := BookingBody(None, None, None, None, None, Some("pending"), None);
      && NoLiveOverlap([old1, other], 7)
      && UpdateErrors(patch) == {}
      && !NoLiveOverlap([Patched(old1, patch), other], 7)
  {
    var old1 := Booking(0, Some(10), Some(12), 7, 1, 0.0, Canceled, 0);
    var other := Booking(1, Some(11), Some(13), 7, 2, 0.0, Pending, 0);
    var patch := BookingBody(None, None, None, None, None, Some("pending"), None);
    var rows := [Patched(old1, patch), other];
    assert rows[0].playground == 7 && rows[1].playground == 7;
    assert Live(rows[0]) && Live(rows[1]) && IntervalsOverlap(rows[0], rows[1]);
  }

  /** `deleteBooking`: removes the booking with this id, or 404. */
  method DeleteBooking(bt: BookingTable, id: BookingId) returns (r: Result<Booking, Failure>)
    requires bt.Valid()
    modifies bt
    ensures bt.Valid()
    ensures r.Err? <==> IndexOf(old(bt.rows), id).None?
    ensures r.Err? ==> r.error == NotFound(id) && bt.rows == old(bt.rows)
    ensures r.Ok? ==> r.value.id == id && bt.rows == RemoveAt(old(bt.rows), IndexOf(old(bt.rows), id).value)
    ensures r.Ok? ==> forall b :: b in bt.rows <==> b in old(bt.rows) && b.id != id
    ensures forall p :: NoLiveOverlap(old(bt.rows), p) ==> NoLiveOverlap(bt.rows, p)
  {
    var i := IndexOf(bt.rows, id);
    if i.None? {
      return Err(NotFound(id));
    }
    ghost var rows0 := bt.rows;
    r := Ok(bt.rows[i.value]);
    bt.rows := RemoveAt(bt.rows, i.value);
    forall b | b in bt.rows
      ensures b in rows0 && b.id != id
    {
      var k :| 0 <= k < |bt.rows| && bt.rows[k] == b;
      if k < i.value { assert b == rows0[k]; } else { assert b == rows0[k + 1]; }
    }
    forall b | b in rows0 && b.id != id
      ensures b in bt.rows
    {
      var k :| 0 <= k < |rows0| && rows0[k] == b;
      if k < i.value { assert bt.rows[k] == b; } else { assert bt.rows[k - 1] == b; }
    }
    forall p | NoLiveOverlap(rows0, p)
      ensures NoLiveOverlap(bt.rows, p)
    {
      DeleteKeepsNoOverlap(rows0, i.value, p);
    }
  }

  /** `Booking.find({ user })`: the user's bookings, all and only them, in
      collection order. */
  function BookingsOf(rows: seq<Booking>, user: UserId): (r: seq<Booking>)
    ensures forall b :: b in r ==> b.user == user
    ensures forall b :: multiset(r)[b] == if b.user == user then multiset(rows)[b] else 0
  {
    Filter(rows, (b: Booking) => b.user == user)
  }

  /** `Booking.find({ playground })`: every booking of the playground,
      whatever its status. */
  function BookingsAt(rows: seq<Booking>, pg: PlaygroundId): (r: seq<Booking>)
    ensures forall b :: b in r ==> b.playground == pg
    ensures forall b :: multiset(r)[b] == if b.playground == pg then multiset(rows)[b] else 0
  {
    Filter(rows, (b: Booking) => b.playground == pg)
  }

  /** The live bookings the availability check reads are among the
      playground's bookings. */
  lemma LiveAmongBookingsAt(rows: seq<Booking>, pg: PlaygroundId)
    ensures forall b :: b in LiveFor(rows, pg) ==> b in BookingsAt(rows, pg)
  {
    forall b | b in LiveFor(rows, pg)
      ensures b in BookingsAt(rows, pg)
    {
      assert b in multiset(BookingsAt(rows, pg));
    }
  }

  method GetMyBookings(bt: BookingTable, caller: UserId) returns (r: seq<Booking>)
    ensures r == BookingsOf(bt.rows, caller)
  {
    r := BookingsOf(bt.rows, caller);
  }

  method GetPlaygroundBookings(bt: BookingTable, pg: PlaygroundId) returns (r: seq<Booking>)
    ensures r == BookingsAt(bt.rows, pg)
  {
    r := BookingsAt(bt.rows, pg);
  }
}

=== FILE: booking_model.dfy ===
/** The Booking schema (models/booking.models.js): the record a booking is
    stored as, the defaults and validators Mongoose applies when one is
    created, and the collection that holds them. */
module BookingModel {
  import opened Common

  /** The `status` enum. */
  datatype Status = Pending | Confirmed | Canceled | Completed

  function StatusName(s: Status): string {
    match s
    case Pending => "pending"
    case Confirmed => "confirmed"
    case Canceled => "canceled"
    case Completed => "completed"
  }

  /** The enum validator on `status`: the four names, and nothing else. */
  function ParseStatus(name: string): (r: Option<Status>)
    ensures r.Some? <==> name in {"pending", "confirmed", "canceled", "completed"}
    ensures r.Some? ==> StatusName(r.value) == name
  {
    if name == "pending" then Some(Pending)
    else if name == "confirmed" then Some(Confirmed)
    else if name == "canceled" then Some(Canceled)
    else if name == "completed" then Some(Completed)
    else None
  }

  lemma ParseStatusName(s: Status)
    ensures ParseStatus(StatusName(s)) == Some(s)
  {
  }

  /** A stored booking. `start` and `end` are plain optional dates in the
      schema (no `required`, no ordering constraint); `playground` and
      `user` are required references. Times are milliseconds since the
      epoch. */
  datatype Booking = Booking(
    id: BookingId,
    start: Option<int>,
    end: Option<int>,
    playground: PlaygroundId,
    user: UserId,
    cost: real,
    status: Status,
    createdAt: int)

  /** The fields a caller may hand to `Booking.create` (a request body):
      each may be absent. `status` is the raw string before the enum
      validator has seen it. */
  datatype BookingBody = BookingBody(
    start: Option<int>,
    end: Option<int>,
    playground: Option<PlaygroundId>,
    user: Option<UserId>,
    cost: Option<real>,
    status: Option<string>,
    createdAt: Option<int>)

  /** The schema paths whose validators can reject a document. */
  datatype Path = PlaygroundPath | UserPath | StatusPath

  /** Every path whose validator fails; Mongoose reports them together. */
  function Invalid(body: BookingBody): (errs: set<Path>)
    ensures PlaygroundPath in errs <==> body.playground.None?
    ensures UserPath in errs <==> body.user.None?
    ensures StatusPath in errs <==> body.status.Some? && ParseStatus(body.status.value).None?
  {
    (if body.playground.None? then {PlaygroundPath} else {})
    + (if body.user.None? then {UserPath} else {})
    + (if body.status.Some? && ParseStatus(body.status.value).None? then {StatusPath} else {})
  }

  /** The document `Booking.create(body)` stores under id `id`, or the
      paths that failed validation. `loadTime` is the single `Date.now()`
      the schema evaluated when its module was loaded: the `createdAt`
      default is that number, not a call made per document. */
  function NewBooking(body: BookingBody, id: BookingId, loadTime: int): (r: Result<Booking, set<Path>>)
    ensures r.Err? <==> Invalid(body) != {}
    ensures r.Err? ==> r.error == Invalid(body)
    ensures r.Ok? ==>
      && r.value.id == id
      && r.value.start == body.start && r.value.end == body.end
      && Some(r.value.playground) == body.playground && Some(r.value.user) == body.user
      && (body.cost.Some? ==> r.value.cost == body.cost.value)
      && (body.status.Some? ==> StatusName(r.value.status) == body.status.value)
      && (body.createdAt.Some? ==> r.value.createdAt == body.createdAt.value)
  {
    if Invalid(body) != {} then Err(Invalid(body))
    else
      Ok(Booking(
        id,
        body.start,
        body.end,
        body.playground.value,
        body.user.value,
        body.cost.GetOr(0.0),
        if body.status.Some? then ParseStatus(body.status.value).value else Pending,
        body.createdAt.GetOr(loadTime)))
  }

  /** A booking created without a status is pending; without a cost it costs 0. */
  lemma DefaultsApplied(body: BookingBody, id: BookingId, loadTime: int)
    requires NewBooking(body, id, loadTime).Ok?
    ensures body.status.None? ==> NewBooking(body, id, loadTime).value.status == Pending
    ensures body.cost.None? ==> NewBooking(body, id, loadTime).value.cost == 0.0
    ensures body.createdAt.None? ==> NewBooking(body, id, loadTime).value.createdAt == loadTime
  {
  }

  /** Two bookings created at any two moments without an explicit
      `createdAt` carry the same timestamp, the one computed at load time. */
  lemma CreatedAtIsShared(b1: BookingBody, b2: BookingBody, id1: BookingId, id2: BookingId, loadTime: int)
    requires NewBooking(b1, id1, loadTime).Ok? && NewBooking(b2, id2, loadTime).Ok?
    requires b1.createdAt.None? && b2.createdAt.None?
    ensures NewBooking(b1, id1, loadTime).value.createdAt == NewBooking(b2, id2, loadTime).value.createdAt
  {
  }

  /** Nothing in the schema orders `start` before `end`: a body whose end
      precedes its start is stored as given. */
  lemma NoIntervalConstraint()
    ensures var body := BookingBody(Some(10), Some(5), Some(1), Some(2), None, None, None);
      NewBooking(body, 0, 0).Ok? && NewBooking(body, 0, 0).value.end.value < NewBooking(body, 0, 0).value.start.value
  {
  }

  /** Position of the booking with id `id`: `Booking.findById`. */
  function IndexOf(rows: seq<Booking>, id: BookingId): (r: Option<nat>)
    ensures r.None? <==> forall i :: 0 <= i < |rows| ==> rows[i].id != id
    ensures r.Some? ==> r.value < |rows| && rows[r.value].id == id
  {
    FirstIndex(rows, (b: Booking) => b.id == id)
  }

  /** The bookings collection, in natural (insertion) order. */
  class BookingTable {
    var rows: seq<Booking>
    var nextId: BookingId
    const loadTime: int

    ghost predicate Valid()
      reads this
    {
      IdsBelow(rows, (b: Booking) => b.id, nextId)
    }

    constructor (loadTime: int)
      ensures Valid() && rows == [] && this.loadTime == loadTime
    {
      rows := [];
      nextId := 0;
      this.loadTime := loadTime;
    }

    /** `Booking.create(body)`: validate, apply defaults, append. */
    method Create(body: BookingBody) returns (r: Result<Booking, set<Path>>)
      requires Valid()
      modifies this
      ensures Valid()
      ensures r == NewBooking(body, old(nextId), loadTime)
      ensures r.Ok? ==> rows == old(rows) + [r.value]
      ensures r.Err? ==> rows == old(rows) && nextId == old(nextId)
    {
      r := NewBooking(body, nextId, loadTime);
      if r.Ok? {
        AppendKeepsIdsBelow(rows, (b: Booking) => b.id, nextId, r.value);
        rows := rows + [r.value];
        nextId := nextId + 1;
      }
    }
  }
}

=== FILE: booking_notices.dfy ===
/** The notifications the booking controllers send after a booking is
    created, confirmed or canceled (controllers/playGroundControllers.js
    and controllers/bookingController.js): one to the booker, one to the
    playground's owner, each stored or lost on its own, and never able to
    change the booking outcome. */
module BookingNotices {
  import opened Common
  import opened Text
  import opened BookingModel
  import opened NotificationModel
  import opened NotificationController

  datatype BookingEvent = WasCreated | WasConfirmed | WasCanceled

  /** The `type` each event's notices carry. */
  function TypeText(ev: BookingEvent): string {
    match ev
    case WasCreated => "booking_created"
    case WasConfirmed => "booking_confirmed"
    case WasCanceled => "booking_canceled"
  }

  function UserTitle(ev: BookingEvent): string {
    match ev
    case WasCreated => "Booking created"
    case WasConfirmed => "Booking confirmed"
    case WasCanceled => "Booking canceled"
  }

  function UserMessage(ev: BookingEvent): string {
    match ev
    case WasCreated => "Your booking has been created and is pending confirmation."
    case WasConfirmed => "Your booking has been confirmed."
    case WasCanceled => "Your booking has been canceled."
  }

  function OwnerTitle(ev: BookingEvent): string {
    match ev
    case WasCreated => "New booking request"
    case WasConfirmed => "You confirmed a booking"
    case WasCanceled => "Booking canceled"
  }

  function OwnerMessage(ev: BookingEvent): string {
    match ev
    case WasCreated => "A new booking was requested for your playground."
    case WasConfirmed => "You have confirmed a booking for your playground."
    case WasCanceled => "A booking was canceled."
  }

  /** The notice to the booker: sent by the booker on creation, by the
      owner on confirmation and cancellation. */
  function UserNotice(ev: BookingEvent, b: Booking, owner: Option<UserId>): NotificationSpec {
    var sender := if ev == WasCreated then Some(b.user) else owner;
    NotificationSpec(Some(b.user), sender, Some(b.id), Some(b.playground), Some(TypeText(ev)),
      Some(UserTitle(ev)), Some(UserMessage(ev)))
  }

  /** The notice to the playground's owner: sent by the owner on
      confirmation, by the booker otherwise. */
  function OwnerNotice(ev: BookingEvent, b: Booking, owner: Option<UserId>): NotificationSpec {
    var sender := if ev == WasConfirmed then owner else Some(b.user);
    NotificationSpec(owner, sender, Some(b.id), Some(b.playground), Some(TypeText(ev)),
      Some(OwnerTitle(ev)), Some(OwnerMessage(ev)))
  }

  function EventType(ev: BookingEvent): NotificationType {
    match ev
    case WasCreated => BookingCreated
    case WasConfirmed => BookingConfirmed
    case WasCanceled => BookingCanceled
  }

  /** The texts pass the schema: no message is blank, and each type is in
      the enum. */
  lemma TextsValid(ev: BookingEvent)
    ensures !Blank(UserMessage(ev)) && !Blank(OwnerMessage(ev))
    ensures ParseType(TypeText(ev)) == Some(EventType(ev))
  {
    EndsInDot(UserMessage(ev));
    EndsInDot(OwnerMessage(ev));
    TypeTextIsEnumName(ev);
  }

  lemma EndsInDot(s: string)
    requires s != [] && s[|s| - 1] == '.'
    ensures !Blank(s)
  {
  }

  /** Each event's `type` is the enum name of its notification type. */
  lemma TypeTextIsEnumName(ev: BookingEvent)
    ensures TypeText(ev) == TypeName(EventType(ev))
    ensures ParseType(TypeText(ev)) == Some(EventType(ev))
  {
    match ev
    case WasCreated =>
    case WasConfirmed =>
    case WasCanceled =>
  }

  /** The booker's notice always passes validation, the owner's exactly
      when the playground has an owner. */
  lemma NoticesAcceptable(ev: BookingEvent, b: Booking, owner: Option<UserId>)
    ensures Acceptable(UserNotice(ev, b, owner))
    ensures Acceptable(OwnerNotice(ev, b, owner)) <==> owner.Some?
  {
    TextsValid(ev);
  }

  /** The notices that reach the store. Reading the owner off a playground
      that does not exist throws before either call is made; otherwise each
      call succeeds unless its sink fails or its recipient is missing. */
  function Sent(dir: Directory, b: Booking, ev: BookingEvent, fails: (bool, bool)): (r: seq<NotificationSpec>)
    ensures |r| <= 2
    ensures b.playground !in dir ==> r == []
  {
    if b.playground !in dir then []
    else
      var owner := dir[b.playground];
      Delivered([UserNotice(ev, b, owner), OwnerNotice(ev, b, owner)], [fails.0, fails.1])
  }

  /** With a known owner and healthy sinks, exactly two notices go out, of
      the event's type: the first to the booker, the second to the owner. */
  lemma FanOut(dir: Directory, b: Booking, ev: BookingEvent)
    requires b.playground in dir && dir[b.playground].Some?
    ensures var r := Sent(dir, b, ev, (false, false));
      && |r| == 2
      && r[0].recipient == Some(b.user)
      && r[1].recipient == dir[b.playground]
      && r[0].ntype == r[1].ntype == Some(TypeName(EventType(ev)))
  {
    var owner := dir[b.playground];
    var u, o := UserNotice(ev, b, owner), OwnerNotice(ev, b, owner);
    NoticesAcceptable(ev, b, owner);
    DeliveredPair(u, o, false, false);
    TypeTextIsEnumName(ev);
    assert Sent(dir, b, ev, (false, false)) == [u] + [o];
  }

  /** A playground without owner still gets the booker notified; only the
      owner's notice is lost. */
  lemma OwnerlessPlayground(dir: Directory, b: Booking, ev: BookingEvent)
    requires b.playground in dir && dir[b.playground].None?
    ensures Sent(dir, b, ev, (false, false)) == [UserNotice(ev, b, None)]
  {
    NoticesAcceptable(ev, b, None);
    DeliveredPair(UserNotice(ev, b, None), OwnerNotice(ev, b, None), false, false);
  }

  /** `try { ...; await Promise.all([...]) } catch (e) { log }` after a
      booking change: the only effect is on the notification log. */
  method Announce(nt: NotificationTable, dir: Directory, b: Booking, ev: BookingEvent, now: int, fails: (bool, bool))
    requires nt.Valid()
    modifies nt
    ensures nt.Valid()
    ensures Appended(old(nt.log), nt.log, Sent(dir, b, ev, fails), now)
  {
    if b.playground in dir {
      var owner := dir[b.playground];
      CreateBoth(nt, UserNotice(ev, b, owner), OwnerNotice(ev, b, owner), now, fails);
    } else {
      assert nt.log[..|nt.log|] == nt.log;
    }
  }
}

=== FILE: chat_controller.dfy ===
/** Conversations between a playground's owner and another user
    (controllers/chatController.js, over the schema of
    models/conversation.models.js): who the two participants are, at most
    one conversation per pair and playground, sending a message, reading
    the messages and marking them read. */
module ChatController {
  import opened Common
  import opened Text
  import opened Sorting
  import opened NotificationModel
  import opened NotificationController

  /** A message embedded in a conversation; `text` is optional and stored
      trimmed. */
  datatype Message = Message(sender: UserId, recipient: UserId, text: Option<string>, isRead: bool, createdAt: int)

  datatype Conversation = Conversation(
    id: ConversationId,
    participants: seq<UserId>,
    user: UserId,
    owner: UserId,
    playground: PlaygroundId,
    messages: seq<Message>,
    lastMessage: Option<string>,
    lastMessageAt: Option<int>)

  /** The body of `startConversation`. */
  datatype StartRequest = StartRequest(ownerId: Option<UserId>, playgroundId: Option<PlaygroundId>, userId: Option<UserId>)

  /** The refusals of `startConversation`, in the order it checks. */
  const IdsRequired := Failure(400, "ownerId and playgroundId are required")
  const PlaygroundNotFound := Failure(404, "Playground not found")
  const OwnerMismatch := Failure(400, "Owner does not match playground")
  const UserIdRequired := Failure(400, "userId is required when the owner initiates the conversation")
  const SameParticipants := Failure(400, "Owner and user must be different participants")

  /** Both ids are given, and the playground exists and is owned by
      `ownerId`. */
  predicate OwnerMatches(dir: Directory, req: StartRequest) {
    && req.ownerId.Some? && req.playgroundId.Some?
    && req.playgroundId.value in dir && dir[req.playgroundId.value] == Some(req.ownerId.value)
  }

  /** The checks of `startConversation` before any conversation is looked
      up: on success, the playground, its owner and the other participant. */
  function Resolve(dir: Directory, initiator: UserId, req: StartRequest): (r: Result<(PlaygroundId, UserId, UserId), Failure>)
    ensures req.ownerId.None? || req.playgroundId.None? ==>
      r == Err(IdsRequired)
    ensures req.ownerId.Some? && req.playgroundId.Some? && req.playgroundId.value !in dir ==>
      r == Err(PlaygroundNotFound)
    ensures (req.ownerId.Some? && req.playgroundId.Some? && req.playgroundId.value in dir
      && dir[req.playgroundId.value] != Some(req.ownerId.value)) ==>
      r == Err(OwnerMismatch)
    ensures (req.ownerId.Some? && req.playgroundId.Some? && req.playgroundId.value in dir
      && dir[req.playgroundId.value] == Some(req.ownerId.value)
      && initiator == req.ownerId.value && req.userId.None?) ==>
      r == Err(UserIdRequired)
    ensures (OwnerMatches(dir, req) && initiator == req.ownerId.value && req.userId == Some(initiator)) ==>
      r == Err(SameParticipants)
    ensures (OwnerMatches(dir, req) && (initiator != req.ownerId.value || (req.userId.Some? && req.userId.value != initiator))) ==>
      r.Ok?
    ensures r.Err? ==> r.error.code == 400 || r.error.code == 404
    ensures r.Ok? ==> var (pg, owner, user) := r.value;
      && req.playgroundId == Some(pg) && req.ownerId == Some(owner)
      && pg in dir && dir[pg] == Some(owner)
      && owner != user
      && (initiator == owner || initiator == user)
      && (initiator == owner ==> req.userId == Some(user))
  {
    if req.ownerId.None? || req.playgroundId.None? then Err(IdsRequired)
    else if req.playgroundId.value !in dir then Err(PlaygroundNotFound)
    else if dir[req.playgroundId.value] != Some(req.ownerId.value) then Err(OwnerMismatch)
    else
      var owner: UserId := req.ownerId.value;
      if initiator == owner && req.userId.None? then
        Err(UserIdRequired)
      else
        var user: UserId := if initiator == owner then req.userId.value else initiator;
        if user == owner then Err(SameParticipants)
        else Ok((req.playgroundId.value, owner, user))
  }

  /** A user who is not the owner always ends up as the user participant,
      whatever `userId` the body names. */
  lemma NonOwnerIsTheUser(dir: Directory, initiator: UserId, req: StartRequest)
    requires Resolve(dir, initiator, req).Ok?
    requires Some(initiator) != req.ownerId
    ensures Resolve(dir, initiator, req).value.2 == initiator
  {
  }

  /** The owner talking to themselves is refused. */
  lemma OwnerCannotTalkToSelf(dir: Directory, owner: UserId, pg: PlaygroundId)
    requires pg in dir && dir[pg] == Some(owner)
    ensures Resolve(dir, owner, StartRequest(Some(owner), Some(pg), Some(owner)))
      == Err(SameParticipants)
  {
  }

  /** Exactly two distinct participants. */
  predicate WellFormed(c: Conversation) {
    |c.participants| == 2 && c.participants[0] != c.participants[1]
  }

  /** The `findOne({ participants: { $all: [a, b] }, playground: pg })`
      filter. */
  predicate Matches(c: Conversation, a: UserId, b: UserId, pg: PlaygroundId) {
    a in c.participants && b in c.participants && c.playground == pg
  }

  /** Two conversations for the same pair on the same playground. */
  ghost predicate SameKey(c: Conversation, d: Conversation) {
    c.playground == d.playground && (forall p :: p in c.participants <==> p in d.participants)
  }

  ghost predicate ConversationsValid(convs: seq<Conversation>, nextId: nat) {
    && (forall i :: 0 <= i < |convs| ==> convs[i].id < nextId && WellFormed(convs[i]))
    && (forall i, j :: 0 <= i < |convs| && 0 <= j < |convs| && i != j ==> convs[i].id != convs[j].id)
    && (forall i, j :: 0 <= i < |convs| && 0 <= j < |convs| && i != j ==> !SameKey(convs[i], convs[j]))
  }

  /** The conversation the find-or-create reuses. */
  function Existing(convs: seq<Conversation>, owner: UserId, user: UserId, pg: PlaygroundId): (r: Option<nat>)
    ensures r.None? <==> forall i :: 0 <= i < |convs| ==> !Matches(convs[i], owner, user, pg)
    ensures r.Some? ==> r.value < |convs| && Matches(convs[r.value], owner, user, pg)
  {
    FirstIndex(convs, (c: Conversation) => Matches(c, owner, user, pg))
  }

  /** For a well-formed conversation and two distinct users, the `$all`
      filter matches exactly the conversation of that pair. */
  lemma MatchesIsSameKey(c: Conversation, d: Conversation, owner: UserId, user: UserId, pg: PlaygroundId)
    requires WellFormed(c) && owner != user
    requires d.participants == [owner, user] && d.playground == pg
    ensures Matches(c, owner, user, pg) <==> SameKey(c, d)
  {
    if Matches(c, owner, user, pg) {
      forall p ensures p in c.participants <==> p in d.participants {
        if p in c.participants {
          assert p == c.participants[0] || p == c.participants[1];
        }
      }
    }
  }

  /** The conversations collection. */
  class ConversationTable {
    var convs: seq<Conversation>
    var nextId: ConversationId

    ghost predicate Valid()
      reads this
    {
      ConversationsValid(convs, nextId)
    }

    constructor ()
      ensures Valid() && convs == []
    {
      convs := [];
      nextId := 0;
    }
  }

  /** Rewriting a conversation's messages and summary, keeping its id,
      participants and playground, keeps the table valid. */
  lemma {:induction false} ReplaceKeepsValid(convs: seq<Conversation>, nextId: nat, i: nat, c: Conversation)
    requires ConversationsValid(convs, nextId) && i < |convs|
    requires c.id == convs[i].id && c.participants == convs[i].participants && c.playground == convs[i].playground
    ensures ConversationsValid(convs[i := c], nextId)
  {
    var s := convs[i := c];
    assert forall k :: 0 <= k < |convs| ==>
      s[k].id == convs[k].id && s[k].participants == convs[k].participants && s[k].playground == convs[k].playground;
    forall a, b | 0 <= a < |s| && 0 <= b < |s| && a != b
      ensures !SameKey(s[a], s[b])
    {
      assert !SameKey(convs[a], convs[b]);
    }
  }

  /** Once the find-or-create has created the conversation for a pair and
      playground, the next lookup finds that same conversation. */
  lemma {:induction false} CreatedIsFound(convs: seq<Conversation>, c: Conversation, owner: UserId, user: UserId, pg: PlaygroundId)
    requires Existing(convs, owner, user, pg).None?
    requires c.participants == [owner, user] && c.playground == pg
    ensures Existing(convs + [c], owner, user, pg) == Some(|convs|)
  {
    var s := convs + [c];
    assert forall i :: 0 <= i < |convs| ==> s[i] == convs[i];
    assert Matches(s[|convs|], owner, user, pg);
  }

  /** `startConversation`: resolve the participants, then return the
      existing conversation for the pair and playground or create it. A
      repeated call finds what the first one returned. */
  method StartConversation(ct: ConversationTable, dir: Directory, initiator: UserId, req: StartRequest)
    returns (r: Result<Conversation, Failure>)
    requires ct.Valid()
    modifies ct
    ensures ct.Valid()
    ensures Resolve(dir, initiator, req).Err? ==> r == Err(Resolve(dir, initiator, req).error) && ct.convs == old(ct.convs)
    ensures Resolve(dir, initiator, req).Ok? ==> r.Ok?
    ensures r.Ok? ==> var (pg, owner, user) := Resolve(dir, initiator, req).value;
      && Matches(r.value, owner, user, pg)
      && Existing(ct.convs, owner, user, pg).Some?
      && ct.convs[Existing(ct.convs, owner, user, pg).value] == r.value
      && (Existing(old(ct.convs), owner, user, pg).Some? ==> ct.convs == old(ct.convs))
      && (Existing(old(ct.convs), owner, user, pg).None? ==>
            r.value == Conversation(old(ct.nextId), [owner, user], user, owner, pg, [], None, None)
            && ct.convs == old(ct.convs) + [r.value])
  {
    var resolved := Resolve(dir, initiator, req);
    if resolved.Err? {
      return Err(resolved.error);
    }
    var (pg, owner, user) := resolved.value;
    var found := Existing(ct.convs, owner, user, pg);
    if found.Some? {
      return Ok(ct.convs[found.value]);
    }
    var c := Conversation(ct.nextId, [owner, user], user, owner, pg, [], None, None);
    CreateKeepsValid(ct.convs, ct.nextId, c, owner, user, pg);
    ct.convs := ct.convs + [c];
    ct.nextId := ct.nextId + 1;
    r := Ok(c);
  }

  /** Creating the conversation of a pair and playground that has none
      keeps every pair and playground to one conversation, and makes the
      new one the conversation the next lookup finds. */
  lemma CreateKeepsValid(convs: seq<Conversation>, nextId: nat, c: Conversation, owner: UserId, user: UserId, pg: PlaygroundId)
    requires ConversationsValid(convs, nextId) && Existing(convs, owner, user, pg).None?
    requires c.id == nextId && c.participants == [owner, user] && c.playground == pg && owner != user
    ensures ConversationsValid(convs + [c], nextId + 1)
    ensures Existing(convs + [c], owner, user, pg) == Some(|convs|)
  {
    forall i | 0 <= i < |convs|
      ensures !SameKey(convs[i], c)
    {
      MatchesIsSameKey(convs[i], c, owner, user, pg);
    }
    CreatedIsFound(convs, c, owner, user, pg);
  }

  /** The index of the conversation with id `id`: `Conversation.findById`. */
  function ConvIndex(convs: seq<Conversation>, id: ConversationId): (r: Option<nat>)
    ensures r.None? <==> forall i :: 0 <= i < |convs| ==> convs[i].id != id
    ensures r.Some? ==> r.value < |convs| && convs[r.value].id == id
  {
    FirstIndex(convs, (c: Conversation) => c.id == id)
  }

  /** The other participant: the first one that is not the sender. */
  function RecipientOf(participants: seq<UserId>, sender: UserId): (r: Option<UserId>)
    ensures r.None? <==> forall k :: 0 <= k < |participants| ==> participants[k] == sender
    ensures r.Some? ==> r.value in participants && r.value != sender
  {
    match FirstIndex(participants, (p: UserId) => p != sender)
    case None => None
    case Some(k) => Some(participants[k])
  }

  /** The participant list is rewritten unless it already holds exactly the
      sender and the recipient. */
  predicate NeedsParticipantFix(current: seq<UserId>, sender: UserId, recipient: UserId) {
    var unique := if sender == recipient then [sender] else [sender, recipient];
    |unique| != |current| || !(forall p :: p in unique ==> p in current)
  }

  /** In a well-formed conversation the sender always has someone to write
      to, and the participant list is never rewritten. */
  lemma WellFormedNeedsNoFix(c: Conversation, sender: UserId)
    requires WellFormed(c) && sender in c.participants
    ensures RecipientOf(c.participants, sender).Some?
    ensures !NeedsParticipantFix(c.participants, sender, RecipientOf(c.participants, sender).value)
  {
    assert c.participants[0] != sender || c.participants[1] != sender;
  }

  /** The notification message: the raw text when it is a non-empty
      string, the fallback otherwise. */
  function NoticeText(text: Option<string>): (m: string)
    ensures text.Some? && text.value != [] ==> m == text.value
    ensures text.None? || text.value == [] ==> !Blank(m)
  {
    if text.Some? && text.value != [] then text.value
    else
      var m := "You received a new message.";
      assert m[|m| - 1] == '.';
      m
  }

  /** A text of nothing but spaces is sent (it is truthy), but the
      notification it produces fails the message validator and is lost. */
  lemma BlankTextLosesNotice(text: string, recipient: UserId, sender: UserId, pg: PlaygroundId)
    requires text != [] && Blank(text)
    ensures !Acceptable(NewMessageNotice(recipient, sender, pg, Some(text)))
  {
  }

  /** The notice `sendMessage` asks `createNotification` for. */
  function NewMessageNotice(recipient: UserId, sender: UserId, pg: PlaygroundId, text: Option<string>): NotificationSpec {
    NotificationSpec(Some(recipient), Some(sender), None, Some(pg), Some("general"), Some("New message"), Some(NoticeText(text)))
  }

  /** `conversation.messages.push(...)` and the summary fields: the
      message is stored with its text trimmed, while `lastMessage` keeps
      the text as sent. */
  function Posted(c: Conversation, m: Message): (r: Conversation)
    ensures r.id == c.id && r.participants == c.participants && r.playground == c.playground
    ensures |r.messages| == |c.messages| + 1 && r.messages[..|c.messages|] == c.messages
    ensures r.messages[|c.messages|] == m.(text := TrimOption(m.text))
    ensures r.lastMessage == m.text && r.lastMessageAt == Some(m.createdAt)
  {
    c.(messages := c.messages + [m.(text := TrimOption(m.text))],
       lastMessage := m.text,
       lastMessageAt := Some(m.createdAt))
  }

  /** `sendMessage`: 404, 403 or 400 as the conversation and the sender
      require; otherwise one unread message from the sender to the other
      participant is appended, the summary updated, and the recipient
      notified, a failed notification swallowed. The reply carries the
      text as sent. */
  method SendMessage(ct: ConversationTable, nt: NotificationTable, id: ConversationId, sender: UserId,
                     text: Option<string>, now: int, sinkFails: bool)
    returns (r: Result<Message, Failure>)
    requires ct.Valid() && nt.Valid()
    modifies ct, nt
    ensures ct.Valid() && nt.Valid()
    ensures ConvIndex(old(ct.convs), id).None? ==> r == Err(Failure(404, "Conversation not found"))
    ensures ConvIndex(old(ct.convs), id).Some? && sender !in old(ct.convs)[ConvIndex(old(ct.convs), id).value].participants ==>
      r == Err(Failure(403, "Forbidden"))
    ensures ConvIndex(old(ct.convs), id).Some? && sender in old(ct.convs)[ConvIndex(old(ct.convs), id).value].participants ==>
      r.Ok?
    ensures r.Err? ==> ct.convs == old(ct.convs) && nt.log == old(nt.log)
    ensures r.Ok? ==> ConvIndex(old(ct.convs), id).Some?
    ensures r.Ok? ==>
      var i := ConvIndex(old(ct.convs), id).value;
      var c := old(ct.convs)[i];
      && sender in c.participants
      && r.value == Message(sender, r.value.recipient, text, false, now)
      && r.value.recipient in c.participants && r.value.recipient != sender
      && ct.convs == old(ct.convs)[i := Posted(c, r.value)]
      && Appended(old(nt.log), nt.log,
           Delivered([NewMessageNotice(r.value.recipient, sender, c.playground, text)], [sinkFails]), now)
  {
    var i := ConvIndex(ct.convs, id);
    if i.None? {
      return Err(Failure(404, "Conversation not found"));
    }
    var c := ct.convs[i.value];
    if sender !in c.participants {
      return Err(Failure(403, "Forbidden"));
    }
    var recipient := RecipientOf(c.participants, sender);
    WellFormedNeedsNoFix(c, sender);
    if recipient.None? {
      return Err(Failure(400, "Invalid conversation participants"));
    }
    var to := recipient.value;
    var participants := c.participants;
    if NeedsParticipantFix(participants, sender, to) {
      participants := [sender, to];
    }
    assert participants == c.participants;
    var message := Message(sender, to, text, false, now);
    PostMessage(ct, i.value, message);
    var _ := CreateNotification(nt, NewMessageNotice(to, sender, c.playground, text), now, sinkFails);
    r := Ok(message);
  }

  /** `conversation.save()` with the message posted. */
  method PostMessage(ct: ConversationTable, i: nat, message: Message)
    requires ct.Valid() && i < |ct.convs|
    modifies ct
    ensures ct.Valid()
    ensures ct.convs == old(ct.convs)[i := Posted(old(ct.convs)[i], message)]
  {
    ReplaceKeepsValid(ct.convs, ct.nextId, i, Posted(ct.convs[i], message));
    ct.convs := ct.convs[i := Posted(ct.convs[i], message)];
  }

  /** `messages` with every message addressed to `caller` marked read. */
  function MarkAllRead(messages: seq<Message>, caller: UserId): (r: seq<Message>)
    ensures |r| == |messages|
    ensures forall k :: 0 <= k < |r| ==> r[k].(isRead := messages[k].isRead) == messages[k]
    ensures forall k :: 0 <= k < |r| ==> (r[k].isRead <==> messages[k].isRead || messages[k].recipient == caller)
  {
    if messages == [] then []
    else
      var m := messages[0];
      [if m.recipient == caller then m.(isRead := true) else m] + MarkAllRead(messages[1..], caller)
  }

  /** A second pass changes nothing. */
  lemma {:induction false} MarkAllReadIdempotent(messages: seq<Message>, caller: UserId)
    ensures MarkAllRead(MarkAllRead(messages, caller), caller) == MarkAllRead(messages, caller)
  {
    var once := MarkAllRead(messages, caller);
    var twice := MarkAllRead(once, caller);
    forall k | 0 <= k < |twice|
      ensures twice[k] == once[k]
    {
      assert twice[k].(isRead := once[k].isRead) == once[k];
    }
  }

  /** Some message addressed to `caller` is still unread. */
  predicate HasUnreadFor(messages: seq<Message>, caller: UserId) {
    exists k :: 0 <= k < |messages| && messages[k].recipient == caller && !messages[k].isRead
  }

  /** Marking changes the messages exactly when one addressed to the caller
      was unread. */
  lemma MarkAllReadChangesIff(messages: seq<Message>, caller: UserId)
    ensures MarkAllRead(messages, caller) != messages <==> HasUnreadFor(messages, caller)
  {
    var r := MarkAllRead(messages, caller);
    if HasUnreadFor(messages, caller) {
      var k :| 0 <= k < |messages| && messages[k].recipient == caller && !messages[k].isRead;
      assert r[k].isRead;
    } else {
      forall k | 0 <= k < |messages|
        ensures r[k] == messages[k]
      {
        assert r[k].(isRead := messages[k].isRead) == messages[k];
      }
    }
  }

  /** `markConversationMessagesRead`: 404 or 403 as for sending; otherwise
      the loop over the messages marks every unread one addressed to the
      caller, and the conversation is saved when any was. The result says
      whether a save happened. */
  method MarkConversationMessagesRead(ct: ConversationTable, id: ConversationId, caller: UserId)
    returns (r: Result<bool, Failure>)
    requires ct.Valid()
    modifies ct
    ensures ct.Valid()
    ensures ConvIndex(old(ct.convs), id).None? ==> r == Err(Failure(404, "Conversation not found"))
    ensures ConvIndex(old(ct.convs), id).Some? ==>
      var i := ConvIndex(old(ct.convs), id).value;
      var c := old(ct.convs)[i];
      && (caller !in c.participants ==> r == Err(Failure(403, "Forbidden")))
      && (caller in c.participants ==>
            && r == Ok(HasUnreadFor(c.messages, caller))
            && ct.convs == old(ct.convs)[i := c.(messages := MarkAllRead(c.messages, caller))])
    ensures r.Err? ==> ct.convs == old(ct.convs)
  {
    var i := ConvIndex(ct.convs, id);
    if i.None? {
      return Err(Failure(404, "Conversation not found"));
    }
    var c := ct.convs[i.value];
    if caller !in c.participants {
      return Err(Failure(403, "Forbidden"));
    }
    var messages, updated := MarkRead(c.messages, caller);
    MarkAllReadChangesIff(c.messages, caller);
    if updated {
      ReplaceKeepsValid(ct.convs, ct.nextId, i.value, c.(messages := messages));
      ct.convs := ct.convs[i.value := c.(messages := messages)];
    } else {
      assert ct.convs == ct.convs[i.value := c.(messages := messages)];
    }
    r := Ok(updated);
  }

  /** The loop of `markConversationMessagesRead`: every message addressed
      to `caller` is marked read, and `updated` records whether any of them
      was unread. */
  method MarkRead(original: seq<Message>, caller: UserId) returns (messages: seq<Message>, updated: bool)
    ensures messages == MarkAllRead(original, caller)
    ensures updated <==> HasUnreadFor(original, caller)
  {
    ghost var target := MarkAllRead(original, caller);
    messages := original;
    updated := false;
    var k := 0;
    while k < |messages|
      invariant 0 <= k <= |messages| == |original|
      invariant forall j :: 0 <= j < k ==> messages[j] == target[j]
      invariant forall j :: k <= j < |messages| ==> messages[j] == original[j]
      invariant updated <==> exists j :: 0 <= j < k && original[j].recipient == caller && !original[j].isRead
    {
      if messages[k].recipient == caller && !messages[k].isRead {
        messages := messages[k := messages[k].(isRead := true)];
        updated := true;
      }
      assert target[k].(isRead := original[k].isRead) == original[k];
      k := k + 1;
    }
    assert messages == target;
  }

  /** The comparator `(a, b) => a.createdAt - b.createdAt`. */
  predicate OldestFirst(a: Message, b: Message) {
    a.createdAt <= b.createdAt
  }

  /** `getConversationMessages`: 404 or 403 as above; otherwise the
      conversation's messages, all of them, oldest first. Nothing is saved. */
  method GetConversationMessages(ct: ConversationTable, id: ConversationId, caller: UserId)
    returns (r: Result<seq<Message>, Failure>)
    ensures ConvIndex(ct.convs, id).None? ==> r == Err(Failure(404, "Conversation not found"))
    ensures ConvIndex(ct.convs, id).Some? ==>
      var c := ct.convs[ConvIndex(ct.convs, id).value];
      && (caller !in c.participants ==> r == Err(Failure(403, "Forbidden")))
      && (caller in c.participants ==>
            && r.Ok? && multiset(r.value) == multiset(c.messages)
            && forall a, b :: 0 <= a < b < |r.value| ==> r.value[a].createdAt <= r.value[b].createdAt)
  {
    var i := ConvIndex(ct.convs, id);
    if i.None? {
      return Err(Failure(404, "Conversation not found"));
    }
    var c := ct.convs[i.value];
    if caller !in c.participants {
      return Err(Failure(403, "Forbidden"));
    }
    r := Ok(SortBy(c.messages, OldestFirst));
  }
}

=== FILE: common.dfy ===
/** Shared vocabulary: optional values, results, document ids, and the two
    query shapes every collection in the system uses (filter in natural order,
    first match). */
module Common {

  datatype Option<+T> = None | Some(value: T) {
    function GetOr(default: T): T {
      match this
      case Some(v) => v
      case None => default
    }
  }

  datatype Result<+T, +E> = Ok(value: T) | Err(error: E)

  /** An HTTP-level failure as the controllers produce it through AppError. */
  datatype Failure = Failure(code: int, message: string)

  // Document ids (Mongo ObjectIds) are opaque; naturals are enough to compare them.
  type UserId = nat
  type PlaygroundId = nat
  type BookingId = nat
  type NotificationId = nat
  type ConversationId = nat
  type AdId = nat

  /** The playground collection as far as the controllers modelled here use
      it: which playgrounds exist, and each one's owner (the playground
      schema does not require an owner). */
  type Directory = map<PlaygroundId, Option<UserId>>

  predicate IsDigits(s: string) {
    forall k :: 0 <= k < |s| ==> '0' <= s[k] <= '9'
  }

  /** The number a string of decimal digits spells. */
  function DecimalValue(s: string): nat
    requires IsDigits(s)
  {
    if s == [] then 0
    else DecimalValue(s[..|s| - 1]) * 10 + (s[|s| - 1] as int - '0' as int)
  }

  /** The text an id is written as in an error message (decimal digits here,
      standing in for the ObjectId's hex string): it spells exactly `n`,
      with no leading zero. */
  function IdText(n: nat): (s: string)
    ensures s != [] && IsDigits(s)
    ensures DecimalValue(s) == n
    ensures s[0] == '0' ==> n == 0
  {
    var digit := [('0' as int + n % 10) as char];
    if n < 10 then digit
    else
      var t := IdText(n / 10) + digit;
      assert t[..|t| - 1] == IdText(n / 10);
      t
  }

  /** Different ids are written differently. */
  lemma IdTextInjective(n: nat, m: nat)
    requires IdText(n) == IdText(m)
    ensures n == m
  {
  }

  /** The ids `id` reads off a table's documents are unique and all below
      the next id the table hands out. */
  ghost predicate IdsBelow<T>(rows: seq<T>, id: T -> nat, nextId: nat) {
    && (forall i :: 0 <= i < |rows| ==> id(rows[i]) < nextId)
    && (forall i, j :: 0 <= i < |rows| && 0 <= j < |rows| && i != j ==> id(rows[i]) != id(rows[j]))
  }

  /** Appending a document under the next id keeps ids unique and below
      the next one. */
  lemma AppendKeepsIdsBelow<T>(rows: seq<T>, id: T -> nat, nextId: nat, x: T)
    requires IdsBelow(rows, id, nextId) && id(x) == nextId
    ensures IdsBelow(rows + [x], id, nextId + 1)
  {
    var t := rows + [x];
    forall i, j | 0 <= i < |t| && 0 <= j < |t| && i != j
      ensures id(t[i]) != id(t[j])
    {
      if i < |rows| && j < |rows| {
        assert t[i] == rows[i] && t[j] == rows[j];
      }
    }
  }

  /** The elements of `s` that satisfy `p`, in their original order: what a
      `find(filter)` query returns in natural (insertion) order. */
  function Filter<T(!new)>(s: seq<T>, p: T -> bool): (r: seq<T>)
    ensures |r| <= |s|
    ensures forall x :: x in r ==> x in s && p(x)
    ensures forall x :: multiset(r)[x] == if p(x) then multiset(s)[x] else 0
  {
    if s == [] then []
    else
      assert s == [s[0]] + s[1..];
      (if p(s[0]) then [s[0]] else []) + Filter(s[1..], p)
  }

  /** The position of the first element of `s` that satisfies `p`: what
      `findOne(filter)` or `Array.prototype.find` selects. */
  function FirstIndex<T>(s: seq<T>, p: T -> bool): (r: Option<nat>)
    ensures r.None? <==> forall i :: 0 <= i < |s| ==> !p(s[i])
    ensures r.Some? ==> r.value < |s| && p(s[r.value])
    ensures r.Some? ==> forall j :: 0 <= j < r.value ==> !p(s[j])
  {
    if s == [] then None
    else if p(s[0]) then Some(0)
    else
      match FirstIndex(s[1..], p)
      case None => None
      case Some(k) => Some(k + 1)
  }

  /** A prefix holds each element at most as often as the whole: what
      `.limit(n)` keeps. */
  lemma PrefixIsSubMultiset<T>(s: seq<T>, n: nat)
    requires n <= |s|
    ensures forall x :: multiset(s[..n])[x] <= multiset(s)[x]
  {
    assert s == s[..n] + s[n..];
  }

  /** `s` without its element at position `i`: a `findOneAndDelete` on a table. */
  function RemoveAt<T>(s: seq<T>, i: nat): (r: seq<T>)
    requires i < |s|
    ensures |r| == |s| - 1
    ensures forall k :: 0 <= k < i ==> r[k] == s[k]
    ensures forall k :: i <= k < |r| ==> r[k] == s[k + 1]
    ensures multiset(r) == multiset(s) - multiset{s[i]}
  {
    assert s == s[..i] + [s[i]] + s[i + 1..];
    s[..i] + s[i + 1..]
  }
}

=== FILE: notification_controller.dfy ===
/** The notification store (controllers/notificationController.js): an
    append-only log that other controllers write to through
    `createNotification`, and that a recipient reads, marks read and
    deletes from, always scoped to their own notifications. */
module NotificationController {
  import opened Common
  import opened Sorting
  import opened NotificationModel

  /** The specs, among `specs`, that end up stored: those whose sink did not
      fail and that the validators accept. `fails[k]` says whether the store
      call for `specs[k]` failed. */
  function Delivered(specs: seq<NotificationSpec>, fails: seq<bool>): (r: seq<NotificationSpec>)
    requires |fails| == |specs|
    ensures |r| <= |specs|
    ensures forall s :: s in r ==> Acceptable(s) && s in specs
    ensures (forall k :: 0 <= k < |specs| ==> !fails[k] && Acceptable(specs[k])) ==> r == specs
    ensures (forall k :: 0 <= k < |specs| ==> fails[k]) ==> r == []
  {
    if specs == [] then []
    else (if !fails[0] && Acceptable(specs[0]) then [specs[0]] else []) + Delivered(specs[1..], fails[1..])
  }

  /** A spec is stored exactly when one of its calls succeeds and passes
      the validators: a failed call stores nothing. */
  lemma {:induction false} DeliveredExactly(specs: seq<NotificationSpec>, fails: seq<bool>, s: NotificationSpec)
    requires |fails| == |specs|
    ensures s in Delivered(specs, fails) <==>
      exists k :: 0 <= k < |specs| && specs[k] == s && !fails[k] && Acceptable(s)
  {
    if specs != [] {
      DeliveredExactly(specs[1..], fails[1..], s);
      if exists k :: 1 <= k < |specs| && specs[k] == s && !fails[k] && Acceptable(s) {
        var k :| 1 <= k < |specs| && specs[k] == s && !fails[k] && Acceptable(s);
        assert specs[1..][k - 1] == s && !fails[1..][k - 1];
      }
    }
  }

  /** `after` is `before` followed by one new unread notification per spec
      in `specs`, in order, each created at `now`. */
  ghost predicate Appended(before: seq<Notification>, after: seq<Notification>, specs: seq<NotificationSpec>, now: int) {
    && |after| == |before| + |specs|
    && after[..|before|] == before
    && forall k :: 0 <= k < |specs| ==> Carries(after[|before| + k], specs[k]) && after[|before| + k].createdAt == now
  }

  lemma {:induction false} AppendedChain(a: seq<Notification>, b: seq<Notification>, c: seq<Notification>,
                                         s1: seq<NotificationSpec>, s2: seq<NotificationSpec>, now: int)
    requires Appended(a, b, s1, now) && Appended(b, c, s2, now)
    ensures Appended(a, c, s1 + s2, now)
  {
    assert c[..|a|] == b[..|b|][..|a|];
    forall k | 0 <= k < |s1 + s2|
      ensures Carries(c[|a| + k], (s1 + s2)[k]) && c[|a| + k].createdAt == now
    {
      if k < |s1| {
        assert c[|a| + k] == c[..|b|][|a| + k];
      } else {
        assert c[|a| + k] == c[|b| + (k - |s1|)];
      }
    }
  }

  lemma DeliveredPair(a: NotificationSpec, b: NotificationSpec, fa: bool, fb: bool)
    ensures Delivered([a, b], [fa, fb]) == Delivered([a], [fa]) + Delivered([b], [fb])
    ensures Delivered([a], [fa]) == if !fa && Acceptable(a) then [a] else []
    ensures Delivered([b], [fb]) == if !fb && Acceptable(b) then [b] else []
  {
    assert [a, b][1..] == [b];
    assert [fa, fb][1..] == [fb];
  }

  /** One spec is delivered exactly when its sink works and the validators
      accept it. */
  lemma DeliveredOne(spec: NotificationSpec, fails: bool)
    ensures Delivered([spec], [fails]) == if !fails && Acceptable(spec) then [spec] else []
  {
    assert [spec][1..] == [];
  }

  /** `createNotification(spec)`: store one notification, or nothing when
      the sink fails or a validator rejects the spec. The caller decides
      what a failure means; here it only leaves the log as it was. */
  method CreateNotification(nt: NotificationTable, spec: NotificationSpec, now: int, sinkFails: bool)
    returns (r: Option<Notification>)
    requires nt.Valid()
    modifies nt
    ensures nt.Valid()
    ensures r.Some? <==> !sinkFails && Acceptable(spec)
    ensures r.Some? ==> nt.log == old(nt.log) + [r.value] && Carries(r.value, spec)
    ensures r.None? ==> nt.log == old(nt.log)
    ensures Appended(old(nt.log), nt.log, Delivered([spec], [sinkFails]), now)
  {
    DeliveredOne(spec, sinkFails);
    if sinkFails {
      assert nt.log[..|nt.log|] == nt.log;
      return None;
    }
    r := NewNotification(spec, nt.nextId, now);
    if r.Some? {
      AppendKeepsIdsBelow(nt.log, (n: Notification) => n.id, nt.nextId, r.value);
      nt.log := nt.log + [r.value];
      nt.nextId := nt.nextId + 1;
    } else {
      assert nt.log[..|nt.log|] == nt.log;
    }
  }

  /** `Promise.all([createNotification(a), createNotification(b)])` under a
      `try` whose `catch` only logs: each call stores its notification or
      fails on its own, and neither failure reaches the caller. */
  method CreateBoth(nt: NotificationTable, a: NotificationSpec, b: NotificationSpec, now: int, fails: (bool, bool))
    requires nt.Valid()
    modifies nt
    ensures nt.Valid()
    ensures Appended(old(nt.log), nt.log, Delivered([a, b], [fails.0, fails.1]), now)
  {
    ghost var log0 := nt.log;
    var _ := CreateNotification(nt, a, now, fails.0);
    ghost var log1 := nt.log;
    var _ := CreateNotification(nt, b, now, fails.1);
    AppendedChain(log0, log1, nt.log, Delivered([a], [fails.0]), Delivered([b], [fails.1]), now);
    DeliveredPair(a, b, fails.0, fails.1);
  }

  /** The query `{ _id: id, recipient: caller }`. */
  predicate OwnedBy(n: Notification, id: NotificationId, caller: UserId) {
    n.id == id && n.recipient == caller
  }

  function OwnedIndex(log: seq<Notification>, id: NotificationId, caller: UserId): (r: Option<nat>)
    ensures r.None? <==> forall k :: 0 <= k < |log| ==> !OwnedBy(log[k], id, caller)
    ensures r.Some? ==> r.value < |log| && OwnedBy(log[r.value], id, caller)
  {
    FirstIndex(log, (n: Notification) => OwnedBy(n, id, caller))
  }

  /** The log after `findOneAndUpdate({ _id: id, recipient: caller }, { isRead: true })`. */
  function MarkRead(log: seq<Notification>, id: NotificationId, caller: UserId): (r: seq<Notification>)
    ensures |r| == |log|
    ensures OwnedIndex(log, id, caller).None? ==> r == log
    ensures OwnedIndex(log, id, caller).Some? ==>
      var i := OwnedIndex(log, id, caller).value;
      r[i] == log[i].(isRead := true) && forall k :: 0 <= k < |log| && k != i ==> r[k] == log[k]
  {
    match OwnedIndex(log, id, caller)
    case None => log
    case Some(i) => log[i := log[i].(isRead := true)]
  }

  /** Marking a notification read a second time changes nothing. */
  lemma {:induction false} MarkReadIdempotent(log: seq<Notification>, id: NotificationId, caller: UserId)
    ensures MarkRead(MarkRead(log, id, caller), id, caller) == MarkRead(log, id, caller)
  {
    var once := MarkRead(log, id, caller);
    match OwnedIndex(log, id, caller)
    case None =>
    case Some(i) =>
      assert forall k :: 0 <= k < i ==> once[k] == log[k];
      assert OwnedBy(once[i], id, caller);
      assert OwnedIndex(once, id, caller) == Some(i);
  }

  /** `markAsRead`: 404 unless a notification with this id is addressed to
      the caller; otherwise it is marked read and returned. */
  method MarkAsRead(nt: NotificationTable, id: NotificationId, caller: UserId)
    returns (r: Result<Notification, Failure>)
    requires nt.Valid()
    modifies nt
    ensures nt.Valid()
    ensures nt.log == MarkRead(old(nt.log), id, caller)
    ensures r.Err? <==> OwnedIndex(old(nt.log), id, caller).None?
    ensures r.Err? ==> r.error == Failure(404, "Notification not found")
    ensures r.Ok? ==> r.value in nt.log && OwnedBy(r.value, id, caller) && r.value.isRead
  {
    var i := OwnedIndex(nt.log, id, caller);
    if i.None? {
      return Err(Failure(404, "Notification not found"));
    }
    var n := nt.log[i.value].(isRead := true);
    nt.log := nt.log[i.value := n];
    r := Ok(n);
  }

  /** The log after `findOneAndDelete({ _id: id, recipient: caller })`. */
  function Deleted(log: seq<Notification>, id: NotificationId, caller: UserId): (r: seq<Notification>)
    ensures OwnedIndex(log, id, caller).None? ==> r == log
    ensures OwnedIndex(log, id, caller).Some? ==>
      multiset(r) == multiset(log) - multiset{log[OwnedIndex(log, id, caller).value]}
    ensures forall n :: n in log && !OwnedBy(n, id, caller) ==> n in r
  {
    match OwnedIndex(log, id, caller)
    case None => log
    case Some(i) =>
      var r := RemoveAt(log, i);
      assert forall k :: 0 <= k < |log| && k != i ==> log[k] in r by {
        forall k | 0 <= k < |log| && k != i ensures log[k] in r {
          if k < i { assert r[k] == log[k]; } else { assert r[k - 1] == log[k]; }
        }
      }
      r
  }

  /** `deleteNotification`: removes the caller's own notification, or 404. */
  method DeleteNotification(nt: NotificationTable, id: NotificationId, caller: UserId)
    returns (r: Result<Notification, Failure>)
    requires nt.Valid()
    modifies nt
    ensures nt.Valid()
    ensures nt.log == Deleted(old(nt.log), id, caller)
    ensures r.Err? <==> OwnedIndex(old(nt.log), id, caller).None?
    ensures r.Err? ==> r.error == Failure(404, "Notification not found")
    ensures r.Ok? ==> r.value in old(nt.log) && r.value !in nt.log && OwnedBy(r.value, id, caller)
  {
    var i := OwnedIndex(nt.log, id, caller);
    if i.None? {
      return Err(Failure(404, "Notification not found"));
    }
    r := Ok(nt.log[i.value]);
    nt.log := RemoveAt(nt.log, i.value);
  }

  /** `.sort({ createdAt: -1 })`. */
  predicate NewestFirst(a: Notification, b: Notification) {
    a.createdAt >= b.createdAt
  }

  /** What `getMyNotifications` answers: the caller's notifications, all of
      them and only them, newest first. */
  function Inbox(log: seq<Notification>, caller: UserId): (r: seq<Notification>)
    ensures forall n :: n in r ==> n.recipient == caller
    ensures forall n :: multiset(r)[n] == if n.recipient == caller then multiset(log)[n] else 0
    ensures forall i, j :: 0 <= i < j < |r| ==> r[i].createdAt >= r[j].createdAt
  {
    var mine := Filter(log, (n: Notification) => n.recipient == caller);
    var r := SortBy(mine, NewestFirst);
    assert forall n :: n in r ==> n in multiset(mine);
    r
  }

  method GetMyNotifications(nt: NotificationTable, caller: UserId) returns (r: seq<Notification>)
    ensures r == Inbox(nt.log, caller)
  {
    r := Inbox(nt.log, caller);
  }
}

=== FILE: notification_model.dfy ===
/** The Notification schema (models/notification.models.js): the record,
    its enum, defaults and validators, and the collection that holds
    notifications. */
module NotificationModel {
  import opened Common
  import opened Text

  /** The `type` enum. */
  datatype NotificationType = General | BookingCreated | BookingConfirmed | BookingCanceled | BookingCompleted

  function TypeName(t: NotificationType): string {
    match t
    case General => "general"
    case BookingCreated => "booking_created"
    case BookingConfirmed => "booking_confirmed"
    case BookingCanceled => "booking_canceled"
    case BookingCompleted => "booking_completed"
  }

  /** The enum validator on `type`. */
  function ParseType(name: string): (r: Option<NotificationType>)
    ensures r.Some? <==> name in {"general", "booking_created", "booking_confirmed", "booking_canceled", "booking_completed"}
    ensures r.Some? ==> TypeName(r.value) == name
  {
    if name == "general" then Some(General)
    else if name == "booking_created" then Some(BookingCreated)
    else if name == "booking_confirmed" then Some(BookingConfirmed)
    else if name == "booking_canceled" then Some(BookingCanceled)
    else if name == "booking_completed" then Some(BookingCompleted)
    else None
  }

  /** A stored notification. `recipient` and `message` are required;
      `message` is stored trimmed. */
  datatype Notification = Notification(
    id: NotificationId,
    recipient: UserId,
    sender: Option<UserId>,
    booking: Option<BookingId>,
    playground: Option<PlaygroundId>,
    ntype: NotificationType,
    title: Option<string>,
    message: string,
    isRead: bool,
    createdAt: int)

  /** The argument object of `createNotification`: any field may be absent
      (a recipient looked up on a playground without owner, for one). */
  datatype NotificationSpec = NotificationSpec(
    recipient: Option<UserId>,
    sender: Option<UserId>,
    booking: Option<BookingId>,
    playground: Option<PlaygroundId>,
    ntype: Option<string>,
    title: Option<string>,
    message: Option<string>)

  /** The schema's validators accept `spec`: a recipient, a message that is
      not empty once trimmed, and a type from the enum when one is given. */
  predicate Acceptable(spec: NotificationSpec) {
    && spec.recipient.Some?
    && spec.message.Some? && !Blank(spec.message.value)
    && (spec.ntype.Some? ==> ParseType(spec.ntype.value).Some?)
  }

  /** `n` stores exactly what `spec` asked for (the message as trimmed, the
      type defaulting to `general`), unread. */
  predicate Carries(n: Notification, spec: NotificationSpec) {
    && Some(n.recipient) == spec.recipient
    && n.sender == spec.sender
    && n.booking == spec.booking
    && n.playground == spec.playground
    && (if spec.ntype.Some? then TypeName(n.ntype) == spec.ntype.value else n.ntype == General)
    && n.title == spec.title
    && spec.message.Some? && n.message == Trim(spec.message.value)
    && !n.isRead
  }

  /** The document `Notification.create(spec)` stores under id `id` at time
      `now`, or None when a validator rejects it. */
  function NewNotification(spec: NotificationSpec, id: NotificationId, now: int): (r: Option<Notification>)
    ensures r.Some? <==> Acceptable(spec)
    ensures r.Some? ==> Carries(r.value, spec) && r.value.id == id && r.value.createdAt == now
  {
    if !Acceptable(spec) then None
    else
      Some(Notification(
        id,
        spec.recipient.value,
        spec.sender,
        spec.booking,
        spec.playground,
        if spec.ntype.Some? then ParseType(spec.ntype.value).value else General,
        spec.title,
        Trim(spec.message.value),
        false,
        now))
  }

  /** What every stored notification satisfies: its message is present,
      trimmed and non-empty. */
  lemma StoredMessageIsTrimmed(spec: NotificationSpec, id: NotificationId, now: int)
    requires NewNotification(spec, id, now).Some?
    ensures var m := NewNotification(spec, id, now).value.message;
      m != [] && IsTrimmed(m)
  {
    TrimEmptyIffBlank(spec.message.value);
    TrimIdempotent(spec.message.value);
  }

  /** A message made only of white space is rejected like a missing one. */
  lemma BlankMessageRejected(spec: NotificationSpec, id: NotificationId, now: int)
    requires spec.message.Some?
    requires Blank(spec.message.value)
    ensures NewNotification(spec, id, now).None?
  {
  }

  /** The notifications collection, in insertion order. */
  class NotificationTable {
    var log: seq<Notification>
    var nextId: NotificationId

    ghost predicate Valid()
      reads this
    {
      IdsBelow(log, (n: Notification) => n.id, nextId)
    }

    constructor ()
      ensures Valid() && log == []
    {
      log := [];
      nextId := 0;
    }
  }
}

=== FILE: playground_controller.dfy ===
/** Booking a playground (controllers/playGroundControllers.js): turning a
    requested date, start time and duration into an interval, checking it
    against the playground's live bookings, and either refusing with 409 or
    storing a pending booking and notifying the booker and the owner. */
module PlaygroundController {
  import opened Common
  import opened BookingModel
  import opened NotificationModel
  import opened NotificationController
  import opened BookingNotices

  /** `existing` blocks a candidate `[ns, ne]` under the three-clause test of
      `isConflictingBooking`. A booking without a start or an end turns into
      NaN times, and every comparison with NaN is false. */
  predicate Clashes(ns: int, ne: int, existing: Booking) {
    && existing.start.Some? && existing.end.Some?
    && var es, ee := existing.start.value, existing.end.value;
       || (ns > es && ns < ee)
       || (ne > es && ne < ee)
       || (ns < ee && ne > es)
  }

  /** The half-open intervals `[s1, e1)` and `[s2, e2)` share a point (for
      intervals that are not inverted). The test is symmetric. */
  predicate Overlaps(s1: int, e1: int, s2: int, e2: int) {
    s1 < e2 && e1 > s2
  }

  /** `isConflictingBooking`: the first booking of `existing`, in order,
      that the candidate clashes with. */
  function IsConflictingBooking(ns: int, ne: int, existing: seq<Booking>): (r: Option<Booking>)
    ensures r.None? <==> forall i :: 0 <= i < |existing| ==> !Clashes(ns, ne, existing[i])
    ensures r.Some? ==> exists i :: (0 <= i < |existing| && existing[i] == r.value
      && Clashes(ns, ne, existing[i])
      && forall j :: 0 <= j < i ==> !Clashes(ns, ne, existing[j]))
  {
    match FirstIndex(existing, (b: Booking) => Clashes(ns, ne, b))
    case None => None
    case Some(i) => Some(existing[i])
  }

  /** For a candidate whose start is not after its end, the three clauses
      say exactly that the two half-open intervals overlap. */
  lemma ClashIsOverlap(ns: int, ne: int, existing: Booking)
    requires ns <= ne
    requires existing.start.Some? && existing.end.Some?
    ensures Clashes(ns, ne, existing) <==> Overlaps(ns, ne, existing.start.value, existing.end.value)
  {
  }

  /** Whatever the candidate, a clash is at least a half-open overlap: the
      third clause alone is that overlap, and the first two add cases only
      for a candidate that ends before it starts. */
  lemma NoClashNoOverlap(ns: int, ne: int, existing: Booking)
    requires existing.start.Some? && existing.end.Some?
    requires !Clashes(ns, ne, existing)
    ensures !Overlaps(ns, ne, existing.start.value, existing.end.value)
    ensures !Overlaps(existing.start.value, existing.end.value, ns, ne)
  {
  }

  /** Back-to-back slots do not clash: a candidate that starts when an
      existing booking ends, or ends when it starts. */
  lemma BackToBack(ns: int, ne: int, existing: Booking)
    requires existing.start.Some? && existing.end.Some?
    requires existing.start.value <= existing.end.value && ns <= ne
    requires ns == existing.end.value || ne == existing.start.value
    ensures !Clashes(ns, ne, existing)
  {
  }

  /** The clauses on hour-long examples: [10, 12) against a booking
      [11, 13) clashes; [12, 14) and [8, 10) fit around [10, 12). */
  lemma ClashExamples(pg: PlaygroundId, user: UserId)
    ensures var b := Booking(0, Some(10), Some(12), pg, user, 0.0, Pending, 0);
      && Clashes(11, 13, b)
      && !Clashes(12, 14, b)
      && !Clashes(8, 10, b)
  {
  }

  /** The statuses the availability query selects (`$in: ["pending",
      "confirmed"]`). */
  predicate Live(b: Booking) {
    b.status == Pending || b.status == Confirmed
  }

  /** `Booking.find({ playground: pg, status: { $in: [...] } })`, in
      collection order. */
  function LiveFor(rows: seq<Booking>, pg: PlaygroundId): (r: seq<Booking>)
    ensures forall b :: b in r <==> b in rows && b.playground == pg && Live(b)
  {
    var r := Filter(rows, (b: Booking) => b.playground == pg && Live(b));
    assert forall b :: b in rows && b.playground == pg && Live(b) ==> b in multiset(r);
    r
  }

  /** Only live bookings of the same playground can block a candidate:
      the check fails exactly when one of those clashes, and what it
      reports is one of them. */
  lemma OnlyLiveBookingsBlock(rows: seq<Booking>, pg: PlaygroundId, ns: int, ne: int)
    ensures IsConflictingBooking(ns, ne, LiveFor(rows, pg)).None? <==>
      forall i :: 0 <= i < |rows| && rows[i].playground == pg && Live(rows[i]) ==> !Clashes(ns, ne, rows[i])
    ensures IsConflictingBooking(ns, ne, LiveFor(rows, pg)).Some? ==>
      var c := IsConflictingBooking(ns, ne, LiveFor(rows, pg)).value;
      c in rows && c.playground == pg && Live(c)
  {
    var live := LiveFor(rows, pg);
    if IsConflictingBooking(ns, ne, live).None? {
      forall i | 0 <= i < |rows| && rows[i].playground == pg && Live(rows[i])
        ensures !Clashes(ns, ne, rows[i])
      {
        assert rows[i] in live;
      }
    } else {
      var c := IsConflictingBooking(ns, ne, live).value;
      assert c in live;
      var i :| 0 <= i < |rows| && rows[i] == c;
    }
  }

  /** Both bookings have an interval and the two intervals overlap. */
  predicate IntervalsOverlap(a: Booking, b: Booking) {
    && a.start.Some? && a.end.Some? && b.start.Some? && b.end.Some?
    && Overlaps(a.start.value, a.end.value, b.start.value, b.end.value)
  }

  /** The live bookings of playground `pg` are pairwise free of overlap. */
  ghost predicate NoLiveOverlap(rows: seq<Booking>, pg: PlaygroundId) {
    forall i, j :: 0 <= i < |rows| && 0 <= j < |rows| && i != j
      && rows[i].playground == pg && rows[j].playground == pg
      && Live(rows[i]) && Live(rows[j])
      ==> !IntervalsOverlap(rows[i], rows[j])
  }

  /** Appending a booking that passed the check keeps the live bookings
      of its playground free of overlap, and never disturbs another
      playground's. */
  lemma {:induction false} BookingKeepsNoOverlap(rows: seq<Booking>, b: Booking, pg: PlaygroundId)
    requires NoLiveOverlap(rows, pg)
    requires b.start.Some? && b.end.Some?
    requires b.playground == pg ==> IsConflictingBooking(b.start.value, b.end.value, LiveFor(rows, pg)).None?
    ensures NoLiveOverlap(rows + [b], pg)
  {
    var rows' := rows + [b];
    forall i, j | 0 <= i < |rows'| && 0 <= j < |rows'| && i != j
      && rows'[i].playground == pg && rows'[j].playground == pg
      && Live(rows'[i]) && Live(rows'[j])
      ensures !IntervalsOverlap(rows'[i], rows'[j])
    {
      if i < |rows| && j < |rows| {
        assert rows'[i] == rows[i] && rows'[j] == rows[j];
      } else {
        var k := if i < |rows| then i else j;
        assert rows'[k] == rows[k] && rows'[k] in LiveFor(rows, pg);
        if rows[k].start.Some? && rows[k].end.Some? {
          NoClashNoOverlap(b.start.value, b.end.value, rows[k]);
        }
      }
    }
  }

  /** Days from 0000-03-01 to March 1 of year `y` in the proleptic
      Gregorian calendar, counted in 400-year eras of 146097 days. */
  function MarchFirst(y: int): int {
    var era := y / 400;
    var yoe := y - era * 400;
    era * 146097 + yoe * 365 + yoe / 4 - yoe / 100
  }

  /** Days from March 1 to the first of month `m` (1..12) of the year that
      starts on that March 1; January and February come last. */
  function DaysSinceMarch(m: int): int
    requires 1 <= m <= 12
  {
    if m == 1 then 306 else if m == 2 then 337 else if m == 3 then 0
    else if m == 4 then 31 else if m == 5 then 61 else if m == 6 then 92
    else if m == 7 then 122 else if m == 8 then 153 else if m == 9 then 184
    else if m == 10 then 214 else if m == 11 then 245 else 275
  }

  /** Days from 1970-01-01 to the given proleptic Gregorian date, for a
      month in 1..12 and any day number (days past the month's end run on
      into the following months). The year is taken to start in March, so
      that February, with its leap day, comes last. */
  function DaysFromCivil(y: int, m: int, d: int): int
    requires 1 <= m <= 12
  {
    var y' := if m <= 2 then y - 1 else y;
    MarchFirst(y') + DaysSinceMarch(m) + d - 1 - 719468
  }

  // Milliseconds in a minute, an hour and a day.
  const MsPerMinute: int := 60000
  const MsPerHour: int := 3600000
  const MsPerDay: int := 86400000

  /** `Date.UTC(year, month - 1, day, hour, minute)` on integer parts:
      years 0 to 99 mean 1900 to 1999, a month index outside 0..11 carries
      into the year, and days, hours and minutes count linearly. */
  function UtcMillis(year: int, month: int, day: int, hour: int, minute: int): int {
    var yr := if 0 <= year <= 99 then 1900 + year else year;
    (MonthStart(yr, month) + day - 1) * MsPerDay + hour * MsPerHour + minute * MsPerMinute
  }

  /** The day number of the first of `month` (counted from 1, any integer)
      of year `yr`: the month index `month - 1` carries into the year. */
  function MonthStart(yr: int, month: int): int {
    var mi := month - 1;
    DaysFromCivil(yr + mi / 12, mi % 12 + 1, 1)
  }

  /** Twelve months on from `m` is month `m` of the next year. */
  lemma MonthStartCarries(y: int, m: int)
    ensures MonthStart(y, m + 12) == MonthStart(y + 1, m)
  {
    DivisionUnique(m + 11, 12, (m - 1) / 12 + 1, (m - 1) % 12);
  }

  /** The proleptic Gregorian leap-year rule. */
  predicate IsLeapYear(y: int) {
    y % 4 == 0 && (y % 100 != 0 || y % 400 == 0)
  }

  /** The calendar's own table of month lengths, for a month in 1..12. */
  function DaysInMonth(y: int, m: int): (n: int)
    requires 1 <= m <= 12
    ensures 28 <= n <= 31
    ensures n == 29 <==> m == 2 && IsLeapYear(y)
  {
    if m == 2 then (if IsLeapYear(y) then 29 else 28)
    else if m == 4 || m == 6 || m == 9 || m == 11 then 30
    else 31
  }

  /** Within an era, year `k` of it adds a leap day when `k` is a multiple
      of 4 but not of 100. */
  lemma YearOfEra(k: int)
    requires 1 <= k < 400
    ensures (k * 365 + k / 4 - k / 100) - ((k - 1) * 365 + (k - 1) / 4 - (k - 1) / 100)
      == if k % 4 == 0 && k % 100 != 0 then 366 else 365
  {
    assert k / 4 - (k - 1) / 4 == if k % 4 == 0 then 1 else 0;
    assert k / 100 - (k - 1) / 100 == if k % 100 == 0 then 1 else 0;
  }

  /** `c * x` is at least `c` for a positive `x`. */
  lemma {:induction false} AtLeastOnce(c: int, x: int)
    requires 0 < c && 1 <= x
    ensures c <= c * x
    decreases x
  {
    if x > 1 {
      AtLeastOnce(c, x - 1);
      assert c * x == c * (x - 1) + c;
    }
  }

  /** Euclidean division has one quotient and one remainder, so exhibiting
      them determines `a / c` and `a % c`. */
  lemma DivisionUnique(a: int, c: int, q: int, r: int)
    requires 0 < c && 0 <= r < c && a == c * q + r
    ensures a / c == q && a % c == r
  {
    var q', r' := a / c, a % c;
    assert a == c * q' + r';
    if q' < q {
      assert c * (q - q') == c * q - c * q';
      AtLeastOnce(c, q - q');
    } else if q' > q {
      assert c * (q' - q) == c * q' - c * q;
      AtLeastOnce(c, q' - q);
    }
  }

  /** Away from a multiple of 400, the leap-year rule depends only on the
      year's place in its era. */
  lemma LeapWithinEra(y: int)
    requires y % 400 != 0
    ensures IsLeapYear(y) <==> (y % 400) % 4 == 0 && (y % 400) % 100 != 0
  {
    var e, k := y / 400, y % 400;
    DivisionUnique(y, 4, 100 * e + k / 4, k % 4);
    DivisionUnique(y, 100, 4 * e + k / 100, k % 100);
  }

  /** The year from March of `y - 1` to February of `y` has 366 days
      exactly when `y` is a leap year. */
  lemma {:induction false} MarchYear(y: int)
    ensures MarchFirst(y) == MarchFirst(y - 1) + if IsLeapYear(y) then 366 else 365
  {
    var e, k := y / 400, y % 400;
    if k == 0 {
      DivisionUnique(y - 1, 400, e - 1, 399);
      DivisionUnique(y, 4, 100 * e, 0);
      assert MarchFirst(y) == e * 146097;
      assert MarchFirst(y - 1) == (e - 1) * 146097 + 399 * 365 + 399 / 4 - 399 / 100;
    } else {
      DivisionUnique(y - 1, 400, e, k - 1);
      LeapWithinEra(y);
      YearOfEra(k);
      assert MarchFirst(y) == e * 146097 + (k * 365 + k / 4 - k / 100);
      assert MarchFirst(y - 1) == e * 146097 + ((k - 1) * 365 + (k - 1) / 4 - (k - 1) / 100);
    }
  }

  /** `DaysFromCivil` agrees with the calendar: the first of each month
      follows the first of the month before by that month's length, and
      December runs on into January of the next year. */
  lemma MonthLengths(y: int, m: int)
    requires 1 <= m <= 12
    ensures var next := if m == 12 then DaysFromCivil(y + 1, 1, 1) else DaysFromCivil(y, m + 1, 1);
      next == DaysFromCivil(y, m, 1) + DaysInMonth(y, m)
  {
    if m == 2 {
      MarchYear(y);
    }
  }

  /** The epoch is 0. */
  lemma EpochIsZero()
    ensures UtcMillis(1970, 1, 1, 0, 0) == 0
  {
    DivisionUnique(1969, 400, 4, 369);
    DivisionUnique(0, 12, 0, 0);
    assert MarchFirst(1969) == 719162;
    assert MonthStart(1970, 1) == 0;
  }

  /** A year from 0 to 99 means the same year of the 1900s. */
  lemma TwoDigitYear(y: int, m: int, d: int, h: int, mi: int)
    requires 0 <= y <= 99
    ensures UtcMillis(y, m, d, h, mi) == UtcMillis(1900 + y, m, d, h, mi)
  {
  }

  /** Twelve months more is one year more: a month index outside 0..11
      carries into the year (for years read as written). */
  lemma MonthCarries(y: int, m: int, d: int, h: int, mi: int)
    requires !(0 <= y <= 99) && !(0 <= y + 1 <= 99)
    ensures UtcMillis(y, m + 12, d, h, mi) == UtcMillis(y + 1, m, d, h, mi)
  {
    MonthStartCarries(y, m);
  }

  /** Days, hours and minutes count linearly, past their usual ranges too. */
  lemma TimeCountsLinearly(y: int, m: int, d: int, h: int, mi: int)
    ensures UtcMillis(y, m, d + 1, h, mi) == UtcMillis(y, m, d, h, mi) + MsPerDay
    ensures UtcMillis(y, m, d, h + 1, mi) == UtcMillis(y, m, d, h, mi) + MsPerHour
    ensures UtcMillis(y, m, d, h, mi + 1) == UtcMillis(y, m, d, h, mi) + MsPerMinute
  {
  }

  /** A month index within the year reaches `DaysFromCivil` unchanged, so
      `MonthLengths` spaces the first days of the months. */
  lemma FirstOfMonth(y: int, m: int)
    requires !(0 <= y <= 99) && 1 <= m <= 12
    ensures UtcMillis(y, m, 1, 0, 0) == DaysFromCivil(y, m, 1) * MsPerDay
  {
    assert MonthStart(y, m) == DaysFromCivil(y, m, 1) by {
      DivisionUnique(m - 1, 12, 0, m - 1);
    }
    assert UtcMillis(y, m, 1, 0, 0) == MonthStart(y, m) * MsPerDay;
  }

  /** A known date. */
  lemma KnownDate()
    ensures UtcMillis(2024, 3, 1, 10, 30) == 1709289000000
  {
    DivisionUnique(2024, 400, 5, 24);
    DivisionUnique(2, 12, 0, 2);
    assert MarchFirst(2024) == 739251;
    assert MonthStart(2024, 3) == 19783;
  }

  /** The request fields `bookPlayground` reads, already split and parsed:
      `date` as year-month-day, `startTime` as hour:minute, `duration` in
      hours, and the optional `cost`. */
  datatype BookingRequest = BookingRequest(
    year: int, month: int, day: int, hour: int, minute: int,
    duration: int,
    cost: Option<real>)

  /** 200 with the stored booking, or 409 naming the conflicting booking's
      start and end. */
  datatype BookOutcome = Booked(booking: Booking) | Conflict(start: Option<int>, end: Option<int>)

  function RequestStart(req: BookingRequest): int {
    UtcMillis(req.year, req.month, req.day, req.hour, req.minute)
  }

  function RequestEnd(req: BookingRequest): int {
    RequestStart(req) + req.duration * MsPerHour
  }

  /** What `bookPlayground` answers when the bookings collection holds
      `rows` and would hand out id `nextId` next. It does not depend on
      whether the notifications that follow succeed. */
  function Decide(rows: seq<Booking>, nextId: BookingId, loadTime: int, pg: PlaygroundId, caller: UserId,
                  req: BookingRequest): (r: BookOutcome)
    ensures r.Conflict? <==> exists i :: (0 <= i < |rows| && rows[i].playground == pg && Live(rows[i])
      && Clashes(RequestStart(req), RequestEnd(req), rows[i]))
    ensures r.Conflict? ==> exists i :: (0 <= i < |rows| && rows[i].playground == pg && Live(rows[i])
      && Clashes(RequestStart(req), RequestEnd(req), rows[i])
      && r.start == rows[i].start && r.end == rows[i].end)
    ensures r.Booked? ==>
      && r.booking.id == nextId
      && r.booking.start == Some(UtcMillis(req.year, req.month, req.day, req.hour, req.minute))
      && r.booking.end == Some(r.booking.start.value + req.duration * 3600000)
      && r.booking.playground == pg && r.booking.user == caller
      && r.booking.cost == req.cost.GetOr(0.0)
      && r.booking.status == Pending
      && r.booking.createdAt == loadTime
  {
    OnlyLiveBookingsBlock(rows, pg, RequestStart(req), RequestEnd(req));
    match IsConflictingBooking(RequestStart(req), RequestEnd(req), LiveFor(rows, pg))
    case Some(c) =>
      var i :| 0 <= i < |rows| && rows[i] == c;
      Conflict(c.start, c.end)
    case None =>
      RequestBodyValid(pg, caller, req);
      Booked(NewBooking(RequestBody(pg, caller, req), nextId, loadTime).value)
  }

  /** The document handed to `Booking.create`. */
  function RequestBody(pg: PlaygroundId, caller: UserId, req: BookingRequest): BookingBody {
    BookingBody(Some(RequestStart(req)), Some(RequestEnd(req)), Some(pg), Some(caller), req.cost, None, None)
  }

  lemma RequestBodyValid(pg: PlaygroundId, caller: UserId, req: BookingRequest)
    ensures Invalid(RequestBody(pg, caller, req)) == {}
  {
    assert forall p :: p !in Invalid(RequestBody(pg, caller, req));
  }

  /** `bookPlayground`: read the playground's live bookings, build the
      interval, refuse with 409 on a clash, otherwise store the booking and
      send the two `booking_created` notices, whose failures are swallowed.
      `fails` says which of the two notification calls fail. */
  method BookPlayground(bt: BookingTable, nt: NotificationTable, dir: Directory, pg: PlaygroundId,
                        caller: UserId, req: BookingRequest, now: int, fails: (bool, bool))
    returns (r: BookOutcome)
    requires bt.Valid() && nt.Valid()
    modifies bt, nt
    ensures bt.Valid() && nt.Valid()
    ensures r == Decide(old(bt.rows), old(bt.nextId), bt.loadTime, pg, caller, req)
    ensures r.Conflict? ==> bt.rows == old(bt.rows) && nt.log == old(nt.log)
    ensures r.Booked? ==> bt.rows == old(bt.rows) + [r.booking]
    ensures r.Booked? ==> Appended(old(nt.log), nt.log, Sent(dir, r.booking, WasCreated, fails), now)
    ensures forall p :: NoLiveOverlap(old(bt.rows), p) ==> NoLiveOverlap(bt.rows, p)
  {
    var live := LiveFor(bt.rows, pg);
    var start := RequestStart(req);
    var end := RequestEnd(req);
    var conflict := IsConflictingBooking(start, end, live);
    if conflict.Some? {
      return Conflict(conflict.value.start, conflict.value.end);
    }
    ghost var rows0 := bt.rows;
    RequestBodyValid(pg, caller, req);
    var created := bt.Create(RequestBody(pg, caller, req));
    r := Booked(created.value);
    assert r == Decide(rows0, old(bt.nextId), bt.loadTime, pg, caller, req);
    DecidedKeepsNoOverlap(rows0, old(bt.nextId), bt.loadTime, pg, caller, req);
    Announce(nt, dir, created.value, WasCreated, now, fails);
  }

  /** A booking `bookPlayground` stores leaves every playground's live
      bookings free of overlap. */
  lemma DecidedKeepsNoOverlap(rows: seq<Booking>, nextId: BookingId, loadTime: int, pg: PlaygroundId, caller: UserId,
                              req: BookingRequest)
    requires Decide(rows, nextId, loadTime, pg, caller, req).Booked?
    ensures var b := Decide(rows, nextId, loadTime, pg, caller, req).booking;
      forall p :: NoLiveOverlap(rows, p) ==> NoLiveOverlap(rows + [b], p)
  {
    var b := Decide(rows, nextId, loadTime, pg, caller, req).booking;
    OnlyLiveBookingsBlock(rows, pg, RequestStart(req), RequestEnd(req));
    forall p | NoLiveOverlap(rows, p)
      ensures NoLiveOverlap(rows + [b], p)
    {
      BookingKeepsNoOverlap(rows, b, p);
    }
  }
}

=== FILE: sorting.dfy ===
/** Ordering of query results: `.sort(...)` on a Mongo query and
    `Array.prototype.sort` with a comparator, both modelled as a sort by a
    total preorder `le` ("a may come before b"). */
module Sorting {

  /** `le` is total and transitive, as every key-based sort order is. */
  ghost predicate TotalPreorder<T(!new)>(le: (T, T) -> bool) {
    && (forall a, b :: le(a, b) || le(b, a))
    && (forall a, b, c :: le(a, b) && le(b, c) ==> le(a, c))
  }

  predicate SortedBy<T>(s: seq<T>, le: (T, T) -> bool) {
    forall i, j :: 0 <= i < j < |s| ==> le(s[i], s[j])
  }

  /** `s` with `x` placed before the first element it may precede. */
  function Insert<T(!new)>(x: T, s: seq<T>, le: (T, T) -> bool): (r: seq<T>)
    requires TotalPreorder(le)
    requires SortedBy(s, le)
    ensures SortedBy(r, le)
    ensures multiset(r) == multiset(s) + multiset{x}
  {
    if s == [] then [x]
    else if le(x, s[0]) then [x] + s
    else
      var t := Insert(x, s[1..], le);
      assert s == [s[0]] + s[1..];
      BoundKeptByPermutation(s[0], x, s[1..], t, le);
      [s[0]] + t
  }

  /** An element ranked no lower than `x` and than every element of `s`
      is ranked no lower than any element of a permutation of `s + [x]`. */
  lemma BoundKeptByPermutation<T>(h: T, x: T, s: seq<T>, t: seq<T>, le: (T, T) -> bool)
    requires le(h, x) && forall k :: 0 <= k < |s| ==> le(h, s[k])
    requires multiset(t) == multiset(s) + multiset{x}
    ensures forall k :: 0 <= k < |t| ==> le(h, t[k])
  {
    forall k | 0 <= k < |t|
      ensures le(h, t[k])
    {
      assert t[k] in multiset(t);
      if t[k] != x {
        assert t[k] in multiset(s);
        var j :| 0 <= j < |s| && s[j] == t[k];
      }
    }
  }

  /** Insertion sort; it keeps elements that compare equal in their input
      order, as `Array.prototype.sort` does. */
  function SortBy<T(!new)>(s: seq<T>, le: (T, T) -> bool): (r: seq<T>)
    requires TotalPreorder(le)
    ensures SortedBy(r, le)
    ensures multiset(r) == multiset(s)
  {
    if s == [] then []
    else
      assert s == [s[0]] + s[1..];
      Insert(s[0], SortBy(s[1..], le), le)
  }

  /** The first `n` elements of a sorted sequence are ranked no lower than
      any of the elements left out: what `.sort(...).limit(n)` returns. */
  lemma {:induction false} PrefixOfSortedIsTop<T(!new)>(s: seq<T>, le: (T, T) -> bool, n: nat)
    requires SortedBy(s, le)
    requires n <= |s|
    ensures multiset(s[..n]) + multiset(s[n..]) == multiset(s)
    ensures forall a, b :: a in s[..n] && b in multiset(s) - multiset(s[..n]) ==> le(a, b)
  {
    assert s == s[..n] + s[n..];
    forall a, b | a in s[..n] && b in multiset(s) - multiset(s[..n])
      ensures le(a, b)
    {
      var i :| 0 <= i < n && s[i] == a;
      assert b in multiset(s[n..]);
      assert b in s[n..];
      var j :| n <= j < |s| && s[j] == b;
    }
  }
}

=== FILE: text.dfy ===
/** String helpers with JavaScript's meaning: `String.prototype.trim`, which
    Mongoose applies to every schema path declared with `trim: true`. */
module Text {
  import opened Common

  /** The characters `trim` removes: ECMAScript WhiteSpace (TAB, VT, FF, SP,
      NBSP, ZWNBSP and the Unicode space separators) and LineTerminator
      (LF, CR, LS, PS). */
  predicate IsSpace(c: char) {
    || c == '\t' || c == '\n' || c == '\U{000B}' || c == '\U{000C}' || c == '\r'
    || c == ' ' || c == '\U{00A0}' || c == '\U{1680}'
    || ('\U{2000}' <= c <= '\U{200A}')
    || c == '\U{2028}' || c == '\U{2029}' || c == '\U{202F}' || c == '\U{205F}'
    || c == '\U{3000}' || c == '\U{FEFF}'
  }

  /** The characters a regular expression's `.` does not match. */
  predicate IsLineTerminator(c: char) {
    c == '\n' || c == '\r' || c == '\U{2028}' || c == '\U{2029}'
  }

  /** `s` without its leading white space. */
  function TrimStart(s: string): (r: string)
    ensures |r| <= |s| && r == s[|s| - |r|..]
    ensures r != [] ==> !IsSpace(r[0])
  {
    if s != [] && IsSpace(s[0]) then TrimStart(s[1..]) else s
  }

  /** What `TrimStart` removes is white space. */
  lemma {:induction false} TrimStartCutsSpace(s: string)
    ensures forall i :: 0 <= i < |s| - |TrimStart(s)| ==> IsSpace(s[i])
  {
    if s != [] && IsSpace(s[0]) {
      TrimStartCutsSpace(s[1..]);
      forall i | 1 <= i < |s| - |TrimStart(s)|
        ensures IsSpace(s[i])
      {
        assert s[i] == s[1..][i - 1];
      }
    }
  }

  /** `s` without its trailing white space. */
  function TrimEnd(s: string): (r: string)
    ensures |r| <= |s| && r == s[..|r|]
    ensures r != [] ==> !IsSpace(r[|r| - 1])
  {
    if s != [] && IsSpace(s[|s| - 1]) then TrimEnd(s[..|s| - 1]) else s
  }

  /** What `TrimEnd` removes is white space. */
  lemma {:induction false} TrimEndCutsSpace(s: string)
    ensures forall i :: |TrimEnd(s)| <= i < |s| ==> IsSpace(s[i])
  {
    if s != [] && IsSpace(s[|s| - 1]) {
      TrimEndCutsSpace(s[..|s| - 1]);
      forall i | |TrimEnd(s)| <= i < |s| - 1
        ensures IsSpace(s[i])
      {
        assert s[i] == s[..|s| - 1][i];
      }
    }
  }

  /** JavaScript's `s.trim()`: the longest infix of `s` that neither starts
      nor ends with white space (empty when `s` is all white space). */
  function Trim(s: string): (r: string)
    ensures |r| <= |s|
    ensures r != [] ==> !IsSpace(r[0]) && !IsSpace(r[|r| - 1])
    ensures var k := |s| - |TrimStart(s)|; k + |r| <= |s| && r == s[k..k + |r|]
  {
    TrimEnd(TrimStart(s))
  }

  /** Everything `trim` removes, on either side, is white space. */
  lemma TrimCutsSpace(s: string)
    ensures var k := |s| - |TrimStart(s)|;
      forall i :: 0 <= i < |s| && (i < k || k + |Trim(s)| <= i) ==> IsSpace(s[i])
  {
    var t := TrimStart(s);
    var k := |s| - |t|;
    TrimStartCutsSpace(s);
    TrimEndCutsSpace(t);
    forall i | k + |Trim(s)| <= i < |s|
      ensures IsSpace(s[i])
    {
      assert s[i] == t[i - k];
    }
  }

  /** A string is trimmed when `trim` leaves it alone. */
  predicate IsTrimmed(s: string) {
    s == [] || (!IsSpace(s[0]) && !IsSpace(s[|s| - 1]))
  }

  lemma {:induction false} TrimStartOfTrimmed(s: string)
    requires s == [] || !IsSpace(s[0])
    ensures TrimStart(s) == s
  {
  }

  lemma {:induction false} TrimEndOfTrimmed(s: string)
    requires s == [] || !IsSpace(s[|s| - 1])
    ensures TrimEnd(s) == s
  {
  }

  /** A trimmed string is its own trim. */
  lemma TrimOfTrimmed(s: string)
    requires IsTrimmed(s)
    ensures Trim(s) == s
  {
    TrimStartOfTrimmed(s);
    TrimEndOfTrimmed(s);
  }

  /** Trimming twice is trimming once, so a value Mongoose stores trimmed is
      a fixed point of the setter. */
  lemma TrimIdempotent(s: string)
    ensures IsTrimmed(Trim(s))
    ensures Trim(Trim(s)) == Trim(s)
  {
    var t := Trim(s);
    TrimStartOfTrimmed(t);
    TrimEndOfTrimmed(t);
  }

  /** Nothing but white space (the empty string included). */
  predicate Blank(s: string) {
    forall i :: 0 <= i < |s| ==> IsSpace(s[i])
  }

  /** Trimming leaves nothing exactly when there was nothing but white
      space, which is when Mongoose's `required` validator rejects a
      trimmed path. */
  lemma TrimEmptyIffBlank(s: string)
    ensures Trim(s) == [] <==> Blank(s)
  {
    if Trim(s) != [] {
      var k := |s| - |TrimStart(s)|;
      assert s[k] == Trim(s)[0];
    } else {
      TrimCutsSpace(s);
    }
  }

  predicate StartsWith(s: string, prefix: string) {
    |prefix| <= |s| && s[..|prefix|] == prefix
  }

  /** An optional string path declared with `trim: true`: absent stays
      absent, present is stored trimmed. */
  function TrimOption(v: Option<string>): (r: Option<string>)
    ensures r.Some? <==> v.Some?
    ensures r.Some? ==> IsTrimmed(r.value) && r.value == Trim(v.value)
  {
    if v.Some? then
      TrimIdempotent(v.value);
      Some(Trim(v.value))
    else None
  }
}
